=== FILE: README.md ===
# Fuzzy duplicate detection, modelled in Dafny

This project models the duplicate-finding core of a small spreadsheet
de-duplication app (`app.py`). The model covers four steps:

1. **Blocking.** Each row's comparison text is built from its non-missing cells, joined by single spaces. Rows are bucketed by the lower-cased first `leading_chars` characters of that text. Rows whose text is shorter are left out. Buckets holding a single row are dropped (`get_comparison_groups`).
2. **Counting.** `calculate_total_comparisons` sums `n * (n - 1) // 2` over the buckets. The summary line then compares that sum with the number of all pairs.
3. **Greedy grouping.** `find_duplicates` walks every bucket in order. Each row not yet processed becomes an *anchor*. The anchor is compared with every later unprocessed row of its bucket. It takes every row whose score against it reaches the threshold. A group is emitted when the anchor took at least one row.
4. **Annotation.** The loop in `main` labels every row with its 1-based group number and the sorted 1-based row numbers of its group, or with -1 and an empty list.

Modules, one per file:
- `Records` (`records.dfy`): rows and comparison text.
- `Blocking` (`blocking.dfy`): buckets, blocks and the comparison total.
- `Grouping` (`grouping.dfy`): the greedy search.
  - As tail-recursive functions (`Detect`).
  - As an imperative method with three nested loops (`FindDuplicates`), proved to return the same result.
- `Annotation` (`annotation.dfy`): the labelling loop.
- `Pipeline` (`pipeline.dfy`): the steps composed.
- `Summary` (`summary.dfy`): the "reduced from" line.
- `Counterexample` (`counterexample.dfy`): a concrete four-row table.

The similarity score is a parameter: any function from two rows to an integer. A pair is similar when its score reaches the integer threshold.

What the code does, and the model follows:
- **Groups are star-shaped around their anchor.** Only the anchor's score decides membership (`row_i` at line 70). A row similar to a grouped non-anchor row is not pulled in.
- **No similar pair is missed entirely.** Of two rows with the same key whose score reaches the threshold, at least one ends up in a group (`Grouping.DetectMaximal`). They need not end up in the same group. A row left out of every group lost each such later row to a group with an earlier anchor (`Grouping.DetectAnchorRule`).
- **Raising the threshold can flag more rows, not fewer** (`Counterexample.ThresholdNotMonotone`).
- **Neither the threshold nor `leading_chars` is validated.** With `leading_chars = 0` every row has the empty key.

## Model

| member | source | states |
|---|---|---|
| Records.Present | app.py:19 | keeps exactly the present cells (a value is kept iff some cell holds it); the result is empty iff every cell is missing |
| Records.PresentAppend | app.py:19 | the present cells keep column order and repeats: those of two runs of cells side by side are the first run's followed by the second's; a missing cell gives none, a present one gives itself |
| Records.Join | app.py:19 | joining with single spaces: empty input gives ""; the length is the parts' total length plus one separator between each two parts; the first part is a prefix, followed by a space when more parts follow |
| Records.JoinAppend | app.py:19 | a single part joins to itself, and each further part lands after the join of the earlier ones and one space |
| Records.ComparisonText | app.py:19 | an all-missing row has the empty text; the first present cell starts the text |
| Records.ComparisonTextAppend | app.py:19 | the text grows cell by cell: an empty row gives "", a missing cell changes nothing, a present cell is appended after a space, or stands alone when no earlier cell was present; this fixes the text of every row |
| Records.Lower | app.py:25 | `.lower()` on ASCII: length kept, no upper-case letter remains, each character is unchanged or an upper-case letter moved by 32 |
| Blocking.BlockKey | app.py:24-25 | a row has a bucket key exactly when its text is at least `leading_chars` long, and the key is then `leading_chars` long |
| Blocking.BucketContents | app.py:22-26 | the reference bucket of a key lists exactly the rows below `n` with that key, in strictly increasing order |
| Blocking.KeyIndex | app.py:26 | dict lookup: the position of the first block with the key, or the length when there is none |
| Blocking.BucketsCorrect | app.py:22-26 | after the loop every block holds exactly the reference bucket of its key; keys are distinct; every present key has a block; blocks come in the order of their keys' first row |
| Blocking.KeepShared | app.py:29 | a block is kept exactly when it has more than one row |
| Blocking.ComparisonGroupsSound | app.py:16-29 | every returned block has at least two rows, all below the row count, all carrying the block's key; rows are strictly increasing; keys distinct; no row in two blocks; blocks ordered by first row |
| Blocking.BlockMembersKeyed | app.py:23-26 | every row of a returned block has text at least `leading_chars` long, and the block's key is the lower-cased prefix of that text |
| Blocking.ComparisonGroupsComplete | app.py:22-29 | a row lies in some returned block exactly when it has a key that another row shares |
| Blocking.TotalBySize | app.py:31-37 | the comparison total of some blocks is at most the pairs among all their rows together |
| Blocking.WellFormedWithinAllPairs | app.py:31-37 | disjoint blocks of rows below `n` call for at most `n * (n - 1) // 2` comparisons |
| Blocking.ComparisonsWithinAllPairs | app.py:156-158 | the blocks' comparison total never exceeds the number of all pairs of the table |
| Grouping.SweepLaterJoins | app.py:65-80 | the inner loop adds to the group, and to `processed`, exactly the unprocessed later rows similar to the anchor, and counts at most one comparison per later row |
| Grouping.VisitAnchorCount | app.py:58-72 | one anchor costs at most one comparison per later row of its block |
| Grouping.VisitBlockCount | app.py:58-72 | one block costs at most `n * (n - 1) // 2` comparisons |
| Grouping.VisitBlocksCount | app.py:55-72 | the blocks cost at most their comparison total |
| Grouping.ComparisonsWithinTotal | app.py:51-72 | `comparison_count` ends at most at `total_comparisons`, which is at most the pairs of the table |
| Grouping.AnchorEffect | app.py:58-84 | an unprocessed anchor processes itself and the rows it takes; it emits a cluster of those rows and itself exactly when it took at least one |
| Grouping.AnchorKeeps | app.py:58-84 | an anchor visit preserves the cluster invariant and only processes rows of its own block |
| Grouping.BlockKeeps | app.py:58-84 | walking a block preserves the cluster invariant and only processes rows of that block |
| Grouping.BlocksKeep | app.py:55-84 | walking the remaining blocks preserves the cluster invariant |
| Grouping.DetectInvariant | app.py:39-88 | the result satisfies the cluster invariant: sizes, anchors, disjointness, star shape, one block per cluster, greedy rule |
| Grouping.DetectClusters | app.py:55-84 | every group has at least two rows and holds its anchor; no row is in two groups; every other row comes after the anchor and scores at least the threshold against it; all rows carry the anchor's key |
| Grouping.DetectGreedy | app.py:62-80 | a row after the anchor with the anchor's key is in the anchor's group exactly when it scores at least the threshold and no earlier group took it |
| Grouping.AnchorPairFlagged | app.py:58-80 | after an anchor's visit, every later row of its block that scores at least the threshold against it is in a group, or the anchor is |
| Grouping.BlockMax | app.py:58-84 | walking a block leaves no similar pair of its rows with both rows ungrouped |
| Grouping.BlocksMax | app.py:55-84 | walking the blocks leaves no similar pair of any block with both rows ungrouped |
| Grouping.DetectMaximal | app.py:55-84 | two rows with the same bucket key whose score reaches the threshold are never both left out of the groups |
| Grouping.AnchorRuleAt | app.py:58-80 | after an anchor's visit, the anchor is grouped, or each later row of its block scoring at least the threshold against it sits in a group with an earlier anchor |
| Grouping.BlockAnchorRule | app.py:58-84 | walking a block keeps that rule for every row of the block |
| Grouping.BlocksAnchorRule | app.py:55-84 | walking the blocks keeps that rule for every row of every block |
| Grouping.DetectAnchorRule | app.py:55-84 | a row left out of every group lost each later same-key row scoring at least the threshold against it to a group whose anchor comes before it |
| Grouping.NothingSimilarComparesAll | app.py:51-80 | when no two distinct rows reach the threshold (a row is never scored against itself), no group is emitted and the counter ends exactly at `total_comparisons` |
| Grouping.SweepAnchor | app.py:65-80 | the inner loop as a loop: equal to the functional sweep; the group is the anchor plus the rows it takes |
| Grouping.SweepBlock | app.py:58-84 | the loop over one block: equal to the functional visit, and costs at most the block's pairs |
| Grouping.FindDuplicates | app.py:39-88 | the three loops return the groups of `Detect`, in order, each of size at least two; the counter ends at most at the total |
| Annotation.SortedBelow | app.py:173 | `sorted(group)`: strictly increasing and holding exactly the group's rows below the row count |
| Annotation.IncreasingUnique | app.py:173 | two strictly increasing lists with the same elements are equal, so the sorted list is unique |
| Annotation.RowNumbersMembers | app.py:174 | a 1-based row number is listed exactly when its row is; every number is at least 1; a strictly increasing row list gives strictly increasing numbers |
| Annotation.GroupLabelRows | app.py:173-174 | a group's row list is strictly increasing, starts at 1 or more, lists `x + 1` exactly for the group's rows `x` below the row count, and is the only such list |
| Annotation.Mark | app.py:176-178 | writing the label row by row down the list leaves every listed row with the new label and every other row with its old one, whatever the order and repeats of the list |
| Annotation.AnnotateGrouped | app.py:172-178 | with disjoint groups, every row of group `k` carries group `k`'s label |
| Annotation.AnnotateUngrouped | app.py:168-169 | a row in no group keeps -1 and the empty list |
| Annotation.AnnotateLabels | app.py:168-178 | with disjoint groups, rows of group `k` get label `k + 1` and its rows; other rows stay unique; group number -1 iff the row is in no group |
| Pipeline.ClusterLabels | app.py:168-178 | annotating disjoint in-range clusters gives each cluster's rows its number and sorted 1-based rows, and -1 exactly to unflagged rows |
| Pipeline.DeduplicateLabels | app.py:163-178 | after the search every row of the `k`-th group is labelled `k + 1` with the group's sorted 1-based rows; a row is labelled -1 iff no group holds it |
| Pipeline.LabelledRowsShareKey | app.py:23-29 | a row labelled with a group has text at least `leading_chars` long and shares its key with another row; short or unmatched rows stay unique |
| Pipeline.SameGroupSameKey | app.py:55-84 | two rows labelled with the same group have the same bucket key |
| Pipeline.SimilarPairLabelled | app.py:163-178 | of two rows with the same bucket key whose score reaches the threshold, at least one gets a group number other than -1 |
| Pipeline.FlaggedRowsShare | app.py:55-84 | every row in a group shares its key with some other row |
| Counterexample.TableBlocks | app.py:16-29 | the four example rows form a single block `[0, 1, 2, 3]` with key "a" |
| Counterexample.AtEighty | app.py:55-84 | at threshold 80 the only group is row 0 with row 1 |
| Counterexample.AtEightyFive | app.py:55-84 | at threshold 85 the only group is row 1 with rows 2 and 3 |
| Counterexample.ThresholdNotMonotone | app.py:58-80 | raising the threshold flags rows the lower one left unique; a row scoring 90 against a grouped row stays unique |
| Summary.ReductionAsWritten | app.py:161 | the share is a ZeroDivisionError exactly when there are no pairs; otherwise it is the total's share in tenths of a percent, rounded down |
| Summary.PairsPositive | app.py:158 | a table has a pair of rows exactly when it has at least two rows |
| Summary.SummaryFailsOnTinyTables | app.py:156-161 | the summary line as written fails exactly on tables of fewer than two rows |
| Summary.OneRowFails | app.py:161 | a one-row table makes the summary line as written fail |
| Summary.Reduction | app.py:161 | corrected share: zero when there are no pairs, otherwise the total's share in tenths of a percent, rounded down |
| Summary.SummaryWithinWhole | app.py:156-161 | the corrected share is defined for every table and is at most 100 % |

## Left out

- The Streamlit interface is not modelled: file upload, sliders, buttons, the progress bar and status text (lines 48-49, 73-76, 86-87), the result summary (lines 181-182) and the download (lines 185-199). This is presentation and I/O.
- Reading and writing Excel files is file I/O.
- `calculate_similarity` (line 14) calls a fuzzy-matching library. It is a parameter `score` returning an integer. The threshold is an integer in the same hundredths, in place of the float division by 100.
- Cell formatting with `str(val)` and the `pd.notna` test are not modelled. A row is a sequence of optional strings whose present cells are already text.
- Records.Lower: only ASCII letters are lower-cased; Python's Unicode case mapping is not modelled.
- `leading_chars` is a natural number. Python's slicing with a negative value is not modelled; the app's slider starts at 1.
- The `duplicate_rows` cell is modelled as the list of 1-based row numbers; its rendering as a comma-separated string is not.
- Annotation.Annotate writes only rows below the row count. pandas would add a row for an index beyond the table. This cannot happen, because every row of every group is in range (`Pipeline.DetectInRange`).
- The model assumes the table keeps its default 0-based row index, so positional (`iloc`) and label (`at`) indexing agree.
- The variable `local_duplicates` (line 56) is never used.
- Summary.ReductionAsWritten: the share is computed in whole tenths of a percent, rounded down. Python computes a float and rounds it to one decimal when printing.
- Summary.Reduction: same rounding simplification as `ReductionAsWritten`.

## Findings

| source | as written | input that shows it | evidently intended | confidence | as-written member | corrected member |
|---|---|---|---|---|---|---|
| app.py:161 | the summary divides `total_comparisons` by `total_possible` unconditionally; `total_possible` is 0 for a table of fewer than two rows, so the page stops with a ZeroDivisionError | a spreadsheet with a single data row (`Summary.OneRowFails`) | a table with no pairs shows a share of 0 and the page continues | not executed; high that it fails, medium on the intended value | Summary.ReductionAsWritten | Summary.Reduction |

=== FILE: annotation.dfy ===
/**
 Annotation of the table with the groups found (app.py lines 168-178).

 Every row starts as unique (group -1, no partner rows). Then, for each
 group in emission order, every row of the group is labelled with the
 group's 1-based number and the group's rows, sorted, as 1-based row
 numbers.
 */
module Annotation {
  import opened Blocking

  /** The two columns added to a row: `duplicate_group` and `duplicate_rows`. */
  datatype Label = Label(duplicateGroup: int, duplicateRows: seq<nat>)

  /** The label of a row in no group. */
  const Unique: Label := Label(-1, [])

  /** The members of `s` below `n`, in increasing order (Python's `sorted`). */
  function SortedBelow(s: set<nat>, n: nat): (r: seq<nat>)
    ensures StrictlyIncreasing(r)
    ensures forall x :: x in r <==> x in s && x < n
  {
    if n == 0 then []
    else
      var prefix := SortedBelow(s, n - 1);
      assert forall p :: 0 <= p < |prefix| ==> prefix[p] in prefix;
      if n - 1 in s then prefix + [n - 1] else prefix
  }

  /** A strictly increasing sequence is determined by its elements. */
  lemma {:induction false} IncreasingUnique(p: seq<nat>, q: seq<nat>)
    requires StrictlyIncreasing(p) && StrictlyIncreasing(q)
    requires forall x :: x in p <==> x in q
    ensures p == q
    decreases |p|
  {
    if p == [] {
      DistinctCard(q);
      assert Elements(q) == {};
    } else {
      assert p[0] in q;
      assert q != [];
      assert q[0] in p;
      assert p[0] == q[0] by {
        var i :| 0 <= i < |p| && p[i] == q[0];
        var j :| 0 <= j < |q| && q[j] == p[0];
        assert p[0] <= p[i] && q[0] <= q[j];
      }
      var p', q' := p[1..], q[1..];
      forall x
        ensures x in p' <==> x in q'
      {
        assert x in p' <==> x in p && x != p[0];
        assert x in q' <==> x in q && x != q[0];
      }
      IncreasingUnique(p', q');
    }
  }

  /** Excel-style row numbers: each index plus one. */
  function RowNumbers(idxs: seq<nat>): seq<nat>
  {
    seq(|idxs|, k requires 0 <= k < |idxs| => idxs[k] + 1)
  }

  /**
   A row number is listed exactly when the row before it is, every number
   is at least 1, and the numbers keep the order of the rows.
   */
  lemma {:induction false} RowNumbersMembers(idxs: seq<nat>)
    ensures forall x: nat :: x + 1 in RowNumbers(idxs) <==> x in idxs
    ensures forall r :: r in RowNumbers(idxs) ==> r >= 1
    ensures StrictlyIncreasing(idxs) ==> StrictlyIncreasing(RowNumbers(idxs))
  {
    var rs := RowNumbers(idxs);
    forall x: nat
      ensures x + 1 in rs <==> x in idxs
    {
      if x + 1 in rs {
        var j :| 0 <= j < |rs| && rs[j] == x + 1;
        assert idxs[j] == x;
      }
      if x in idxs {
        var j :| 0 <= j < |idxs| && idxs[j] == x;
        assert rs[j] == x + 1;
      }
    }
  }

  /** The label written for the rows of group `k` of a table of `n` rows. */
  function GroupLabel(groups: seq<set<nat>>, k: nat, n: nat): Label
    requires k < |groups|
  {
    Label(k + 1, RowNumbers(SortedBelow(groups[k], n)))
  }

  /**
   The row list of a group's label is the group's rows, each plus one, in
   strictly increasing order, and it is the only such list.
   */
  lemma {:induction false} GroupLabelRows(groups: seq<set<nat>>, k: nat, n: nat)
    requires k < |groups|
    ensures var rs := GroupLabel(groups, k, n).duplicateRows;
      && StrictlyIncreasing(rs)
      && (forall r :: r in rs ==> r >= 1)
      && (forall x: nat :: x + 1 in rs <==> x in groups[k] && x < n)
      && (forall idxs: seq<nat> :: StrictlyIncreasing(idxs) && (forall x :: x in idxs <==> x in groups[k] && x < n)
            ==> rs == RowNumbers(idxs))
  {
    var sorted := SortedBelow(groups[k], n);
    var rs := GroupLabel(groups, k, n).duplicateRows;
    RowNumbersMembers(sorted);
    forall idxs: seq<nat> | StrictlyIncreasing(idxs) && (forall x :: x in idxs <==> x in groups[k] && x < n)
      ensures rs == RowNumbers(idxs)
    {
      IncreasingUnique(idxs, sorted);
    }
  }

  /** Row `i` is in one of the groups. */
  ghost predicate InAnyGroup(groups: seq<set<nat>>, i: nat)
  {
    exists k :: 0 <= k < |groups| && i in groups[k]
  }

  ghost predicate PairwiseDisjoint(groups: seq<set<nat>>)
  {
    forall k, l :: 0 <= k < l < |groups| ==> groups[k] !! groups[l]
  }

  /**
   The inner loop at app.py lines 176-178: writes the label into the listed
   rows one after the other, in list order. Afterwards every listed row of
   the table carries the label and every other row keeps its own.
   */
  function Mark(labels: seq<Label>, idxs: seq<nat>, tag: Label): (r: seq<Label>)
    ensures |r| == |labels|
    ensures forall i :: 0 <= i < |labels| && i in idxs ==> r[i] == tag
    ensures forall i :: 0 <= i < |labels| && i !in idxs ==> r[i] == labels[i]
    decreases |idxs|
  {
    if idxs == [] then labels
    else
      var written := if idxs[0] < |labels| then labels[idxs[0] := tag] else labels;
      assert forall i :: i in idxs <==> i == idxs[0] || i in idxs[1..];
      Mark(written, idxs[1..], tag)
  }

  /** The annotation loop over the groups in emission order, on a table of `n` rows. */
  function Annotate(n: nat, groups: seq<set<nat>>): (labels: seq<Label>)
    ensures |labels| == n
    decreases |groups|
  {
    if groups == [] then seq(n, i => Unique)
    else
      var k := |groups| - 1;
      Mark(Annotate(n, groups[..k]), SortedBelow(groups[k], n), GroupLabel(groups, k, n))
  }

  lemma {:induction false} DisjointPrefix(groups: seq<set<nat>>)
    requires PairwiseDisjoint(groups) && groups != []
    ensures PairwiseDisjoint(groups[..|groups| - 1])
  {
    var init := groups[..|groups| - 1];
    forall k, l | 0 <= k < l < |init|
      ensures init[k] !! init[l]
    {
      assert init[k] == groups[k] && init[l] == groups[l];
    }
  }

  /**
   One step of the outer loop: if the rows of the earlier groups carry their
   labels, marking the last group keeps those and labels the last group's rows.
   */
  lemma {:induction false} GroupedStep(n: nat, groups: seq<set<nat>>, prior: seq<Label>, labels: seq<Label>)
    requires PairwiseDisjoint(groups) && groups != [] && |prior| == n
    requires forall k, i :: 0 <= k < |groups| - 1 && i in groups[k] && i < n ==> prior[i] == GroupLabel(groups, k, n)
    requires labels == Mark(prior, SortedBelow(groups[|groups| - 1], n), GroupLabel(groups, |groups| - 1, n))
    ensures forall k, i :: 0 <= k < |groups| && i in groups[k] && i < n ==> labels[i] == GroupLabel(groups, k, n)
  {
    var last := |groups| - 1;
    var marked := SortedBelow(groups[last], n);
    forall k, i | 0 <= k < |groups| && i in groups[k] && i < n
      ensures labels[i] == GroupLabel(groups, k, n)
    {
      if k < last {
        assert i !in groups[last];
        assert i !in marked;
      } else {
        assert i in marked;
      }
    }
  }

  /** With pairwise disjoint groups, each row of group `k` carries the label of group `k`. */
  lemma {:induction false} AnnotateGrouped(n: nat, groups: seq<set<nat>>)
    requires PairwiseDisjoint(groups)
    ensures forall k, i :: 0 <= k < |groups| && i in groups[k] && i < n ==>
      Annotate(n, groups)[i] == GroupLabel(groups, k, n)
    decreases |groups|
  {
    if groups != [] {
      var last := |groups| - 1;
      var init := groups[..last];
      var prior := Annotate(n, init);
      var labels := Annotate(n, groups);
      assert labels == Mark(prior, SortedBelow(groups[last], n), GroupLabel(groups, last, n));
      assert forall k, i :: 0 <= k < last && i in groups[k] && i < n ==> prior[i] == GroupLabel(groups, k, n) by {
        DisjointPrefix(groups);
        AnnotateGrouped(n, init);
        forall k, i | 0 <= k < last && i in groups[k] && i < n
          ensures prior[i] == GroupLabel(groups, k, n)
        {
          assert init[k] == groups[k];
        }
      }
      GroupedStep(n, groups, prior, labels);
      forall k, i | 0 <= k < |groups| && i in groups[k] && i < n
        ensures Annotate(n, groups)[i] == GroupLabel(groups, k, n)
      {
        assert labels[i] == GroupLabel(groups, k, n);
      }
    }
  }

  /** Every row in no group keeps the unique label. */
  lemma {:induction false} AnnotateUngrouped(n: nat, groups: seq<set<nat>>)
    ensures forall i :: 0 <= i < n && !InAnyGroup(groups, i) ==> Annotate(n, groups)[i] == Unique
    decreases |groups|
  {
    if groups != [] {
      var labels := Annotate(n, groups);
      var last := |groups| - 1;
      var init := groups[..last];
      AnnotateUngrouped(n, init);
      forall i | 0 <= i < n && !InAnyGroup(groups, i)
        ensures labels[i] == Unique
      {
        assert !InAnyGroup(init, i) by {
          forall k | 0 <= k < |init|
            ensures i !in init[k]
          {
            assert init[k] == groups[k];
          }
        }
        assert i !in SortedBelow(groups[last], n);
      }
    }
  }

  /**
   With pairwise disjoint groups, each row of group `k` carries the label of
   group `k` and every row in no group stays unique; a row's group number is
   -1 exactly when it is in no group.
   */
  lemma {:induction false} AnnotateLabels(n: nat, groups: seq<set<nat>>)
    requires PairwiseDisjoint(groups)
    ensures |Annotate(n, groups)| == n
    ensures forall k, i :: 0 <= k < |groups| && i in groups[k] && i < n ==>
      Annotate(n, groups)[i] == GroupLabel(groups, k, n)
    ensures forall i :: 0 <= i < n && !InAnyGroup(groups, i) ==> Annotate(n, groups)[i] == Unique
    ensures forall i :: 0 <= i < n ==> (Annotate(n, groups)[i].duplicateGroup == -1 <==> !InAnyGroup(groups, i))
  {
    var labels := Annotate(n, groups);
    AnnotateGrouped(n, groups);
    AnnotateUngrouped(n, groups);
    forall i | 0 <= i < n && InAnyGroup(groups, i)
      ensures labels[i].duplicateGroup != -1
    {
      var k :| 0 <= k < |groups| && i in groups[k];
      assert labels[i] == GroupLabel(groups, k, n);
    }
  }
}

=== FILE: blocking.dfy ===
/**
 Blocking: rows are bucketed by the lower-cased first `leadingChars`
 characters of their comparison text, and only rows sharing a bucket are
 ever compared (app.py lines 16-37).

 Python's dict keeps keys in insertion order, so the buckets are modelled as
 a sequence of blocks in the order their keys first occur.
 */
module Blocking {
  import opened Records

  /** A bucket: its key and the row indices carrying that key, in row order. */
  datatype Block = Block(key: string, members: seq<nat>)

  /**
   The bucket key of a row, or None when its comparison text is shorter than
   `leadingChars` (such a row is left out of every bucket).
   */
  function BlockKey(row: Row, leadingChars: nat): (k: Option<string>)
    ensures k.Some? <==> |ComparisonText(row)| >= leadingChars
    ensures k.Some? ==> |k.value| == leadingChars
  {
    var text := ComparisonText(row);
    if |text| >= leadingChars then Some(Lower(text[..leadingChars])) else None
  }

  /** The bucket key of every row. */
  function Keys(rows: seq<Row>, leadingChars: nat): (keys: seq<Option<string>>)
    ensures |keys| == |rows|
    ensures forall i :: 0 <= i < |rows| ==> keys[i] == BlockKey(rows[i], leadingChars)
  {
    seq(|rows|, i requires 0 <= i < |rows| => BlockKey(rows[i], leadingChars))
  }

  /** Reference definition: the indices below `n` whose key is `k`, ascending. */
  function Bucket(keys: seq<Option<string>>, n: nat, k: string): seq<nat>
    requires n <= |keys|
  {
    if n == 0 then []
    else Bucket(keys, n - 1, k) + (if keys[n - 1] == Some(k) then [n - 1] else [])
  }

  predicate StrictlyIncreasing(s: seq<nat>)
  {
    forall p, q :: 0 <= p < q < |s| ==> s[p] < s[q]
  }

  lemma {:induction false} BucketContents(keys: seq<Option<string>>, n: nat, k: string)
    requires n <= |keys|
    ensures forall x: nat :: x in Bucket(keys, n, k) <==> x < n && keys[x] == Some(k)
    ensures StrictlyIncreasing(Bucket(keys, n, k))
  {
    if n > 0 {
      BucketContents(keys, n - 1, k);
      var prev := Bucket(keys, n - 1, k);
      assert forall p :: 0 <= p < |prev| ==> prev[p] < n - 1 by {
        forall p | 0 <= p < |prev| ensures prev[p] < n - 1 {
          assert prev[p] in prev;
        }
      }
    }
  }

  /** Position of the first block whose key is `k`, or `|bs|` when there is none. */
  function KeyIndex(bs: seq<Block>, k: string): (a: nat)
    ensures a <= |bs|
    ensures a < |bs| ==> bs[a].key == k
    ensures forall b :: 0 <= b < a ==> bs[b].key != k
  {
    if bs == [] then 0
    else if bs[0].key == k then 0
    else 1 + KeyIndex(bs[1..], k)
  }

  /**
   Adds row `i` to the end of the bucket with key `k`, opening a new bucket
   at the end when there is none yet (app.py line 26); buckets stay in the
   order their keys first appeared.
   */
  function Append(bs: seq<Block>, k: string, i: nat): seq<Block>
  {
    var a := KeyIndex(bs, k);
    if a < |bs| then bs[a := Block(k, bs[a].members + [i])]
    else bs + [Block(k, [i])]
  }

  /** The buckets after the loop of app.py lines 23-26 has seen the first `n` rows. */
  function Buckets(keys: seq<Option<string>>, n: nat): seq<Block>
    requires n <= |keys|
  {
    if n == 0 then []
    else
      match keys[n - 1]
      case None => Buckets(keys, n - 1)
      case Some(k) => Append(Buckets(keys, n - 1), k, n - 1)
  }

  /** Every block holds exactly the reference bucket of its key. */
  ghost predicate MembersExact(keys: seq<Option<string>>, n: nat, bs: seq<Block>)
    requires n <= |keys|
  {
    forall a :: 0 <= a < |bs| ==> bs[a].members == Bucket(keys, n, bs[a].key)
  }

  predicate KeysDistinct(bs: seq<Block>)
  {
    forall a, b :: 0 <= a < b < |bs| ==> bs[a].key != bs[b].key
  }

  /** Every key carried by one of the first `n` rows has a block. */
  predicate KeysCovered(keys: seq<Option<string>>, n: nat, bs: seq<Block>)
    requires n <= |keys|
  {
    forall i :: 0 <= i < n && keys[i].Some? ==> KeyIndex(bs, keys[i].value) < |bs|
  }

  /** Blocks are non-empty and ordered by their first (earliest) row. */
  predicate FirstMembersIncreasing(bs: seq<Block>)
  {
    && (forall a :: 0 <= a < |bs| ==> |bs[a].members| > 0)
    && (forall a, b :: 0 <= a < b < |bs| ==> bs[a].members[0] < bs[b].members[0])
  }

  /** What the buckets look like after `n` rows, with no reference to how they were built. */
  ghost predicate BucketsAfter(keys: seq<Option<string>>, n: nat, bs: seq<Block>)
    requires n <= |keys|
  {
    MembersExact(keys, n, bs) && KeysDistinct(bs) && KeysCovered(keys, n, bs) && FirstMembersIncreasing(bs)
  }

  lemma {:induction false} BucketEmpty(keys: seq<Option<string>>, n: nat, k: string)
    requires n <= |keys|
    requires forall i :: 0 <= i < n ==> keys[i] != Some(k)
    ensures Bucket(keys, n, k) == []
  {
    if n > 0 {
      BucketEmpty(keys, n - 1, k);
    }
  }

  /** Any block carrying key `k` bounds the position KeyIndex finds. */
  lemma {:induction false} KeyIndexAtMost(bs: seq<Block>, k: string, a: nat)
    requires a < |bs| && bs[a].key == k
    ensures KeyIndex(bs, k) <= a
  {
  }

  lemma {:induction false} KeyIndexSameKeys(bs: seq<Block>, cs: seq<Block>)
    requires |bs| == |cs|
    requires forall a :: 0 <= a < |bs| ==> bs[a].key == cs[a].key
    ensures forall k :: KeyIndex(bs, k) == KeyIndex(cs, k)
  {
    forall k
      ensures KeyIndex(bs, k) == KeyIndex(cs, k)
    {
    }
  }

  /** Every index in a bucket after `m` rows is below `m`. */
  lemma {:induction false} BucketsBelow(keys: seq<Option<string>>, m: nat, bs: seq<Block>)
    requires m <= |keys|
    requires MembersExact(keys, m, bs)
    ensures forall a, x :: 0 <= a < |bs| && x in bs[a].members ==> x < m
  {
    forall a | 0 <= a < |bs|
      ensures forall x :: x in bs[a].members ==> x < m
    {
      BucketContents(keys, m, bs[a].key);
    }
  }

  /** A row with no key leaves the buckets as they are. */
  lemma {:induction false} SkipKeeps(keys: seq<Option<string>>, m: nat, bs: seq<Block>)
    requires m < |keys| && keys[m].None?
    requires BucketsAfter(keys, m, bs)
    ensures BucketsAfter(keys, m + 1, bs)
  {
    forall a | 0 <= a < |bs|
      ensures bs[a].members == Bucket(keys, m + 1, bs[a].key)
    {
    }
  }

  lemma {:induction false} AppendHitExact(keys: seq<Option<string>>, m: nat, k: string, bs: seq<Block>)
    requires m < |keys| && keys[m] == Some(k)
    requires MembersExact(keys, m, bs) && KeysDistinct(bs) && KeyIndex(bs, k) < |bs|
    ensures MembersExact(keys, m + 1, Append(bs, k, m))
  {
    var cs := Append(bs, k, m);
    var a := KeyIndex(bs, k);
    forall b | 0 <= b < |cs|
      ensures cs[b].members == Bucket(keys, m + 1, cs[b].key)
    {
      if b != a {
        assert cs[b] == bs[b] && bs[b].key != k;
      } else {
        assert Bucket(keys, m + 1, k) == Bucket(keys, m, k) + [m];
      }
    }
  }

  lemma {:induction false} AppendHitOrdered(bs: seq<Block>, k: string, m: nat)
    requires FirstMembersIncreasing(bs) && KeyIndex(bs, k) < |bs|
    ensures FirstMembersIncreasing(Append(bs, k, m))
  {
    var cs := Append(bs, k, m);
    assert forall b :: 0 <= b < |cs| ==> cs[b].members[0] == bs[b].members[0];
  }

  /** A row whose key already has a bucket is appended to that bucket. */
  lemma {:induction false} AppendHitKeeps(keys: seq<Option<string>>, m: nat, k: string, bs: seq<Block>)
    requires m < |keys| && keys[m] == Some(k)
    requires BucketsAfter(keys, m, bs)
    requires KeyIndex(bs, k) < |bs|
    ensures BucketsAfter(keys, m + 1, Append(bs, k, m))
  {
    var cs := Append(bs, k, m);
    assert forall b :: 0 <= b < |cs| ==> cs[b].key == bs[b].key;
    KeyIndexSameKeys(bs, cs);
    AppendHitExact(keys, m, k, bs);
    AppendHitOrdered(bs, k, m);
  }

  lemma {:induction false} AppendMissExact(keys: seq<Option<string>>, m: nat, k: string, bs: seq<Block>)
    requires m < |keys| && keys[m] == Some(k)
    requires MembersExact(keys, m, bs) && KeysCovered(keys, m, bs)
    requires KeyIndex(bs, k) == |bs|
    ensures MembersExact(keys, m + 1, Append(bs, k, m))
  {
    var cs := Append(bs, k, m);
    forall x | 0 <= x < m
      ensures keys[x] != Some(k)
    {
      if keys[x].Some? {
        var y := KeyIndex(bs, keys[x].value);
        assert bs[y].key == keys[x].value;
      }
    }
    BucketEmpty(keys, m, k);
    forall b | 0 <= b < |cs|
      ensures cs[b].members == Bucket(keys, m + 1, cs[b].key)
    {
      if b < |bs| {
        assert bs[b].key != k;
      }
    }
  }

  lemma {:induction false} AppendMissCovered(keys: seq<Option<string>>, m: nat, k: string, bs: seq<Block>)
    requires m < |keys| && keys[m] == Some(k)
    requires KeysCovered(keys, m, bs)
    requires KeyIndex(bs, k) == |bs|
    ensures KeysCovered(keys, m + 1, Append(bs, k, m))
  {
    var cs := Append(bs, k, m);
    forall x | 0 <= x < m + 1 && keys[x].Some?
      ensures KeyIndex(cs, keys[x].value) < |cs|
    {
      if x < m {
        KeyIndexAtMost(cs, keys[x].value, KeyIndex(bs, keys[x].value));
      } else {
        KeyIndexAtMost(cs, k, |bs|);
      }
    }
  }

  lemma {:induction false} AppendMissOrdered(keys: seq<Option<string>>, m: nat, k: string, bs: seq<Block>)
    requires m <= |keys|
    requires MembersExact(keys, m, bs) && FirstMembersIncreasing(bs)
    requires KeyIndex(bs, k) == |bs|
    ensures FirstMembersIncreasing(Append(bs, k, m))
  {
    var cs := Append(bs, k, m);
    BucketsBelow(keys, m, bs);
    forall b | 0 <= b < |bs|
      ensures cs[b].members[0] < cs[|bs|].members[0]
    {
      assert bs[b].members[0] in bs[b].members;
    }
  }

  /** A row whose key is new opens a bucket at the end. */
  lemma {:induction false} AppendMissKeeps(keys: seq<Option<string>>, m: nat, k: string, bs: seq<Block>)
    requires m < |keys| && keys[m] == Some(k)
    requires BucketsAfter(keys, m, bs)
    requires KeyIndex(bs, k) == |bs|
    ensures BucketsAfter(keys, m + 1, Append(bs, k, m))
  {
    AppendMissExact(keys, m, k, bs);
    AppendMissCovered(keys, m, k, bs);
    AppendMissOrdered(keys, m, k, bs);
  }

  /** The insertion loop keeps `BucketsAfter` one row at a time. */
  lemma {:induction false} BucketsCorrect(keys: seq<Option<string>>, n: nat)
    requires n <= |keys|
    ensures BucketsAfter(keys, n, Buckets(keys, n))
  {
    if n > 0 {
      var m := n - 1;
      BucketsCorrect(keys, m);
      var bs := Buckets(keys, m);
      match keys[m]
      case None =>
        SkipKeeps(keys, m, bs);
      case Some(k) =>
        if KeyIndex(bs, k) < |bs| {
          AppendHitKeeps(keys, m, k, bs);
        } else {
          AppendMissKeeps(keys, m, k, bs);
        }
    }
  }

  /** The buckets holding more than one row, in their original order (app.py line 29). */
  function KeepShared(bs: seq<Block>): (r: seq<Block>)
    ensures forall b :: b in r ==> b in bs && |b.members| > 1
    ensures forall b :: b in bs && |b.members| > 1 ==> b in r
  {
    if bs == [] then []
    else (if |bs[0].members| > 1 then [bs[0]] else []) + KeepShared(bs[1..])
  }

  lemma {:induction false} ConsOrdered(h: Block, t: seq<Block>)
    requires FirstMembersIncreasing(t)
    requires |h.members| > 0
    requires forall b :: 0 <= b < |t| ==> h.members[0] < t[b].members[0]
    ensures FirstMembersIncreasing([h] + t)
  {
    var r := [h] + t;
    forall a, b | 0 <= a < b < |r|
      ensures r[a].members[0] < r[b].members[0]
    {
      assert r[b] == t[b - 1];
      if a > 0 {
        assert r[a] == t[a - 1];
      }
    }
  }

  lemma {:induction false} KeepSharedOrdered(bs: seq<Block>)
    requires FirstMembersIncreasing(bs)
    ensures FirstMembersIncreasing(KeepShared(bs))
  {
    if bs != [] {
      var rest := bs[1..];
      assert FirstMembersIncreasing(rest) by {
        forall a, b | 0 <= a < b < |rest|
          ensures rest[a].members[0] < rest[b].members[0]
        {
          assert rest[a] == bs[a + 1] && rest[b] == bs[b + 1];
        }
      }
      KeepSharedOrdered(rest);
      var tail := KeepShared(rest);
      if |bs[0].members| > 1 {
        forall b | 0 <= b < |tail|
          ensures bs[0].members[0] < tail[b].members[0]
        {
          assert tail[b] in rest;
        }
        ConsOrdered(bs[0], tail);
      }
    }
  }

  /** Filtering keeps every surviving block exact and the order by first row. */
  lemma {:induction false} KeepSharedExact(keys: seq<Option<string>>, n: nat, bs: seq<Block>)
    requires n <= |keys|
    requires MembersExact(keys, n, bs)
    ensures MembersExact(keys, n, KeepShared(bs))
  {
    var r := KeepShared(bs);
    forall a | 0 <= a < |r|
      ensures r[a].members == Bucket(keys, n, r[a].key)
    {
      assert r[a] in bs;
    }
  }

  /** Exact, non-empty, ordered blocks carry pairwise different keys. */
  lemma {:induction false} ExactKeysDistinct(keys: seq<Option<string>>, n: nat, bs: seq<Block>)
    requires n <= |keys|
    requires MembersExact(keys, n, bs) && FirstMembersIncreasing(bs)
    ensures KeysDistinct(bs)
  {
    forall a, b | 0 <= a < b < |bs|
      ensures bs[a].key != bs[b].key
    {
      assert bs[a].members[0] < bs[b].members[0];
    }
  }

  /** Exact blocks with different keys hold increasing, in-range, disjoint rows. */
  lemma {:induction false} ExactDisjoint(keys: seq<Option<string>>, n: nat, bs: seq<Block>)
    requires n <= |keys|
    requires MembersExact(keys, n, bs) && KeysDistinct(bs)
    ensures forall a, x :: 0 <= a < |bs| && x in bs[a].members ==> x < n
    ensures forall a, x :: 0 <= a < |bs| && x in bs[a].members && x < n ==> keys[x] == Some(bs[a].key)
    ensures forall a :: 0 <= a < |bs| ==> StrictlyIncreasing(bs[a].members)
    ensures Disjoint(bs)
  {
    forall a | 0 <= a < |bs|
      ensures forall x :: x in bs[a].members ==> x < n && keys[x] == Some(bs[a].key)
      ensures StrictlyIncreasing(bs[a].members)
    {
      BucketContents(keys, n, bs[a].key);
    }
  }

  /** No row index lies in two different blocks. */
  ghost predicate Disjoint(bs: seq<Block>)
  {
    forall a, b, x :: 0 <= a < b < |bs| && x in bs[a].members ==> x !in bs[b].members
  }

  /**
   get_comparison_groups (app.py lines 16-29): the buckets that hold more
   than one row, in order of their keys' first occurrence.
   */
  function ComparisonGroups(rows: seq<Row>, leadingChars: nat): seq<Block>
  {
    KeepShared(Buckets(Keys(rows, leadingChars), |rows|))
  }

  /** The blocks of a table with `n` rows, as the grouping stage relies on them. */
  ghost predicate WellFormed(bs: seq<Block>, n: nat)
  {
    && (forall a :: 0 <= a < |bs| ==> |bs[a].members| >= 2)
    && (forall a, x :: 0 <= a < |bs| && x in bs[a].members ==> x < n)
    && (forall a :: 0 <= a < |bs| ==> StrictlyIncreasing(bs[a].members))
    && Disjoint(bs)
  }

  lemma {:induction false} ComparisonGroupsExact(rows: seq<Row>, leadingChars: nat)
    ensures var bs := ComparisonGroups(rows, leadingChars);
      && MembersExact(Keys(rows, leadingChars), |rows|, bs)
      && FirstMembersIncreasing(bs)
      && KeysDistinct(bs)
      && (forall a :: 0 <= a < |bs| ==> |bs[a].members| >= 2)
  {
    var keys := Keys(rows, leadingChars);
    var all := Buckets(keys, |rows|);
    BucketsCorrect(keys, |rows|);
    KeepSharedOrdered(all);
    KeepSharedExact(keys, |rows|, all);
    var bs := KeepShared(all);
    assert bs == ComparisonGroups(rows, leadingChars);
    ExactKeysDistinct(keys, |rows|, bs);
    forall a | 0 <= a < |bs|
      ensures |bs[a].members| >= 2
    {
      assert bs[a] in bs;
    }
  }

  lemma {:induction false} KeysAreBlockKeys(rows: seq<Row>, leadingChars: nat, bs: seq<Block>)
    requires forall a, x :: 0 <= a < |bs| && x in bs[a].members ==> x < |rows|
    requires forall a, x :: 0 <= a < |bs| && x in bs[a].members && x < |rows| ==>
      Keys(rows, leadingChars)[x] == Some(bs[a].key)
    ensures forall a, x :: 0 <= a < |bs| && x in bs[a].members && x < |rows| ==>
      BlockKey(rows[x], leadingChars) == Some(bs[a].key)
  {
    var keys := Keys(rows, leadingChars);
    forall a, x | 0 <= a < |bs| && x in bs[a].members && x < |rows|
      ensures BlockKey(rows[x], leadingChars) == Some(bs[a].key)
    {
      assert keys[x] == Some(bs[a].key);
    }
  }

  /**
   Every returned block holds at least two rows, each of them long enough and
   carrying the block's key; rows are listed in increasing order, no row is in
   two blocks, keys are pairwise different, and blocks come in the order in
   which their keys first occur.
   */
  lemma {:induction false} ComparisonGroupsSound(rows: seq<Row>, leadingChars: nat)
    ensures var bs := ComparisonGroups(rows, leadingChars);
      && (forall a :: 0 <= a < |bs| ==> |bs[a].members| >= 2)
      && (forall a, x :: 0 <= a < |bs| && x in bs[a].members ==> x < |rows|)
      && (forall a, x :: 0 <= a < |bs| && x in bs[a].members && x < |rows| ==>
            BlockKey(rows[x], leadingChars) == Some(bs[a].key))
      && (forall a :: 0 <= a < |bs| ==> StrictlyIncreasing(bs[a].members))
      && KeysDistinct(bs)
      && Disjoint(bs)
      && FirstMembersIncreasing(bs)
    ensures WellFormed(ComparisonGroups(rows, leadingChars), |rows|)
  {
    var bs := ComparisonGroups(rows, leadingChars);
    ComparisonGroupsExact(rows, leadingChars);
    ExactDisjoint(Keys(rows, leadingChars), |rows|, bs);
    KeysAreBlockKeys(rows, leadingChars, bs);
  }

  /**
   Every row of a returned block has a comparison text at least
   `leadingChars` long, and the block's key is the lower-cased first
   `leadingChars` characters of that text.
   */
  lemma {:induction false} BlockMembersKeyed(rows: seq<Row>, leadingChars: nat)
    ensures var bs := ComparisonGroups(rows, leadingChars);
      forall a, x :: 0 <= a < |bs| && x in bs[a].members ==>
        && x < |rows|
        && |ComparisonText(rows[x])| >= leadingChars
        && bs[a].key == Lower(ComparisonText(rows[x])[..leadingChars])
  {
    var bs := ComparisonGroups(rows, leadingChars);
    ComparisonGroupsSound(rows, leadingChars);
    forall a, x | 0 <= a < |bs| && x in bs[a].members
      ensures x < |rows| && |ComparisonText(rows[x])| >= leadingChars
      ensures bs[a].key == Lower(ComparisonText(rows[x])[..leadingChars])
    {
      assert BlockKey(rows[x], leadingChars) == Some(bs[a].key);
    }
  }

  /** Row `i` has a bucket key that at least one other row carries too. */
  ghost predicate SharesKey(rows: seq<Row>, leadingChars: nat, i: nat)
    requires i < |rows|
  {
    && BlockKey(rows[i], leadingChars).Some?
    && exists j :: 0 <= j < |rows| && j != i && BlockKey(rows[j], leadingChars) == BlockKey(rows[i], leadingChars)
  }

  ghost predicate InSomeBlock(bs: seq<Block>, i: nat)
  {
    exists a :: 0 <= a < |bs| && i in bs[a].members
  }

  /** Two distinct elements make a sequence at least two long. */
  lemma {:induction false} TwoDistinct(s: seq<nat>, x: nat, y: nat)
    requires x in s && y in s && x != y
    ensures |s| >= 2
  {
  }

  lemma {:induction false} InBlockShares(rows: seq<Row>, leadingChars: nat, i: nat)
    requires i < |rows|
    requires InSomeBlock(ComparisonGroups(rows, leadingChars), i)
    ensures SharesKey(rows, leadingChars, i)
  {
    var bs := ComparisonGroups(rows, leadingChars);
    ComparisonGroupsSound(rows, leadingChars);
    var a :| 0 <= a < |bs| && i in bs[a].members;
    var m := bs[a].members;
    var j := if m[0] == i then m[1] else m[0];
    assert j in m && j != i;
    assert BlockKey(rows[j], leadingChars) == Some(bs[a].key) == BlockKey(rows[i], leadingChars);
  }

  lemma {:induction false} SharesInBlock(rows: seq<Row>, leadingChars: nat, i: nat)
    requires i < |rows|
    requires SharesKey(rows, leadingChars, i)
    ensures InSomeBlock(ComparisonGroups(rows, leadingChars), i)
  {
    var keys := Keys(rows, leadingChars);
    var n := |rows|;
    var all := Buckets(keys, n);
    BucketsCorrect(keys, n);
    var k := keys[i].value;
    var j :| 0 <= j < n && j != i && keys[j] == keys[i];
    var a := KeyIndex(all, k);
    var m := all[a].members;
    BucketContents(keys, n, k);
    assert i in m && j in m;
    TwoDistinct(m, i, j);
    var bs := ComparisonGroups(rows, leadingChars);
    assert all[a] in bs;
    var c :| 0 <= c < |bs| && bs[c] == all[a];
  }

  /**
   A row lies in some returned block exactly when its comparison text is long
   enough and at least one other row has the same key.
   */
  lemma {:induction false} ComparisonGroupsComplete(rows: seq<Row>, leadingChars: nat)
    ensures forall i :: 0 <= i < |rows| ==>
      (InSomeBlock(ComparisonGroups(rows, leadingChars), i) <==> SharesKey(rows, leadingChars, i))
  {
    forall i | 0 <= i < |rows|
      ensures InSomeBlock(ComparisonGroups(rows, leadingChars), i) <==> SharesKey(rows, leadingChars, i)
    {
      if InSomeBlock(ComparisonGroups(rows, leadingChars), i) {
        InBlockShares(rows, leadingChars, i);
      }
      if SharesKey(rows, leadingChars, i) {
        SharesInBlock(rows, leadingChars, i);
      }
    }
  }

  /** Number of unordered pairs among `n` rows. */
  function Pairs(n: nat): nat
  {
    n * (n - 1) / 2
  }

  lemma {:induction false} PairsStep(n: nat)
    ensures Pairs(n + 1) == Pairs(n) + n
  {
    assert (n + 1) * n == n * (n - 1) + 2 * n;
  }

  lemma {:induction false} PairsSuperadditive(a: nat, b: nat)
    ensures Pairs(a) + Pairs(b) <= Pairs(a + b)
  {
    if b > 0 {
      PairsSuperadditive(a, b - 1);
      PairsStep(b - 1);
      PairsStep(a + b - 1);
    }
  }

  lemma {:induction false} PairsMonotone(a: nat, b: nat)
    requires a <= b
    ensures Pairs(a) <= Pairs(b)
  {
    PairsSuperadditive(a, b - a);
  }

  /** calculate_total_comparisons (app.py lines 31-37). */
  function TotalComparisons(bs: seq<Block>): nat
  {
    if bs == [] then 0 else Pairs(|bs[0].members|) + TotalComparisons(bs[1..])
  }

  function TotalSize(bs: seq<Block>): nat
  {
    if bs == [] then 0 else |bs[0].members| + TotalSize(bs[1..])
  }

  function Covered(bs: seq<Block>): set<nat>
  {
    if bs == [] then {} else Elements(bs[0].members) + Covered(bs[1..])
  }

  /** The row indices of a sequence, as a set. */
  function Elements(s: seq<nat>): set<nat>
  {
    set x | x in s
  }

  lemma {:induction false} DistinctCard(s: seq<nat>)
    requires StrictlyIncreasing(s)
    ensures |Elements(s)| == |s|
  {
    if s != [] {
      var tail := s[1..];
      assert StrictlyIncreasing(tail);
      DistinctCard(tail);
      assert s[0] !in tail by {
        forall i | 0 <= i < |tail|
          ensures tail[i] != s[0]
        {
          assert tail[i] == s[i + 1];
        }
      }
      assert Elements(s) == {s[0]} + Elements(tail);
    } else {
      assert Elements(s) == {};
    }
  }

  /** A row is covered by some blocks exactly when one of them holds it. */
  lemma {:induction false} CoveredMembers(bs: seq<Block>)
    ensures forall x :: x in Covered(bs) <==> InSomeBlock(bs, x)
    decreases |bs|
  {
    if bs != [] {
      CoveredMembers(bs[1..]);
      forall x
        ensures x in Covered(bs) <==> InSomeBlock(bs, x)
      {
        if InSomeBlock(bs, x) {
          var a :| 0 <= a < |bs| && x in bs[a].members;
          if a > 0 {
            assert x in bs[1..][a - 1].members;
          }
        }
        if x in Covered(bs[1..]) {
          var b :| 0 <= b < |bs[1..]| && x in bs[1..][b].members;
          assert x in bs[b + 1].members;
        }
      }
    }
  }

  lemma {:induction false} CoveredSize(bs: seq<Block>)
    requires forall a :: 0 <= a < |bs| ==> StrictlyIncreasing(bs[a].members)
    requires Disjoint(bs)
    ensures |Covered(bs)| == TotalSize(bs)
  {
    if bs != [] {
      assert Disjoint(bs[1..]) by {
        forall a, b, x | 0 <= a < b < |bs| - 1 && x in bs[1..][a].members
          ensures x !in bs[1..][b].members
        {
          assert bs[1..][a] == bs[a + 1] && bs[1..][b] == bs[b + 1];
        }
      }
      CoveredSize(bs[1..]);
      CoveredMembers(bs[1..]);
      DistinctCard(bs[0].members);
      var head := Elements(bs[0].members);
      forall x | x in Covered(bs[1..])
        ensures x !in head
      {
        var b :| 0 <= b < |bs[1..]| && x in bs[1..][b].members;
        assert x in bs[b + 1].members;
      }
    }
  }

  /** The row indices `0 .. n - 1`. */
  function Below(n: nat): (r: set<nat>)
    ensures forall x: nat :: x in r <==> x < n
    ensures |r| == n
  {
    if n == 0 then {}
    else
      var r := Below(n - 1) + {n - 1};
      assert n - 1 !in Below(n - 1);
      r
  }

  lemma {:induction false} TotalBySize(bs: seq<Block>)
    ensures TotalComparisons(bs) <= Pairs(TotalSize(bs))
  {
    if bs != [] {
      TotalBySize(bs[1..]);
      PairsSuperadditive(|bs[0].members|, TotalSize(bs[1..]));
    }
  }

  /** Disjoint blocks of rows below `n` call for at most `Pairs(n)` comparisons. */
  lemma {:induction false} WellFormedWithinAllPairs(bs: seq<Block>, n: nat)
    requires WellFormed(bs, n)
    ensures TotalComparisons(bs) <= Pairs(n)
  {
    CoveredSize(bs);
    CoveredMembers(bs);
    forall x | x in Covered(bs)
      ensures x in Below(n)
    {
      var a :| 0 <= a < |bs| && x in bs[a].members;
    }
    assert Covered(bs) <= Below(n);
    assert Below(n) == Covered(bs) + (Below(n) - Covered(bs));
    assert |Covered(bs)| <= n;
    TotalBySize(bs);
    PairsMonotone(TotalSize(bs), n);
  }

  /**
   The "reduced from" figure of app.py lines 157-161: the comparisons the
   buckets call for never exceed the number of pairs of the whole table.
   */
  lemma {:induction false} ComparisonsWithinAllPairs(rows: seq<Row>, leadingChars: nat)
    ensures TotalComparisons(ComparisonGroups(rows, leadingChars)) <= Pairs(|rows|)
  {
    var bs := ComparisonGroups(rows, leadingChars);
    ComparisonGroupsSound(rows, leadingChars);
    WellFormedWithinAllPairs(bs, |rows|);
  }
}

=== FILE: counterexample.dfy ===
/**
 A four-row table on which the greedy grouping of find_duplicates (app.py
 lines 55-84) does two things a reader might not expect.

 All four rows share the one-character key "a". Row 1 scores 80 against
 row 0 and 90 against rows 2 and 3; every other pair scores 0.

 - Raising the threshold from 80 to 85 flags more rows, not fewer: at 80,
   row 0 claims row 1 first, and rows 2 and 3 are left alone; at 85, row 1
   is free to become an anchor and takes both.
 - Group membership does not chain: at 80, row 2 scores 90 against row 1,
   which is in a group, yet row 2 is in none, because only the anchor's
   scores count.
 */
module Counterexample {
  import opened Records
  import opened Blocking
  import opened Grouping

  const R0: Row := [Some("a0")]
  const R1: Row := [Some("a1")]
  const R2: Row := [Some("a2")]
  const R3: Row := [Some("a3")]
  const Table: seq<Row> := [R0, R1, R2, R3]

  /** A symmetric score table for the four rows. */
  function PairScore(r: Row, s: Row): int
  {
    if (r == R0 && s == R1) || (r == R1 && s == R0) then 80
    else if (r == R1 && (s == R2 || s == R3)) || (s == R1 && (r == R2 || r == R3)) then 90
    else 0
  }

  lemma {:induction false} KeyOfOneCell(v: string)
    requires |v| >= 1 && v[0] == 'a'
    ensures BlockKey([Some(v)], 1) == Some("a")
  {
    assert Present([Some(v)]) == [v];
    assert ComparisonText([Some(v)]) == v;
    assert Lower(v[..1]) == "a";
  }

  lemma {:induction false} TableKeys()
    ensures Keys(Table, 1) == [Some("a"), Some("a"), Some("a"), Some("a")]
  {
    KeyOfOneCell("a0");
    KeyOfOneCell("a1");
    KeyOfOneCell("a2");
    KeyOfOneCell("a3");
  }

  /** The four rows form one block. */
  lemma {:induction false} TableBlocks()
    ensures ComparisonGroups(Table, 1) == [Block("a", [0, 1, 2, 3])]
  {
    var keys := Keys(Table, 1);
    TableKeys();
    var b1 := [Block("a", [0])];
    var b2 := [Block("a", [0, 1])];
    var b3 := [Block("a", [0, 1, 2])];
    var b4 := [Block("a", [0, 1, 2, 3])];
    assert Buckets(keys, 1) == b1;
    assert KeyIndex(b1, "a") == 0 && [0] + [1] == [0, 1];
    assert Buckets(keys, 2) == b2;
    assert KeyIndex(b2, "a") == 0 && [0, 1] + [2] == [0, 1, 2];
    assert Buckets(keys, 3) == b3;
    assert KeyIndex(b3, "a") == 0 && [0, 1, 2] + [3] == [0, 1, 2, 3];
    assert Buckets(keys, 4) == b4;
    assert KeepShared(b4[1..]) == [];
  }

  /** The scores of the six pairs, anchor first. */
  lemma {:induction false} Scores()
    ensures PairScore(R0, R1) == 80 && PairScore(R0, R2) == 0 && PairScore(R0, R3) == 0
    ensures PairScore(R1, R2) == 90 && PairScore(R1, R3) == 90 && PairScore(R2, R3) == 0
  {
    assert R0[0].value[1] == '0' && R1[0].value[1] == '1';
    assert R2[0].value[1] == '2' && R3[0].value[1] == '3';
    assert R0 != R1 && R0 != R2 && R0 != R3 && R1 != R2 && R1 != R3 && R2 != R3;
  }

  lemma {:induction false} SweepStep(sc: Scoring, anchor: nat, h: nat, t: seq<nat>, s: Sweep)
    ensures SweepLater(sc, anchor, [h] + t, s) == SweepLater(sc, anchor, t, Compare(sc, anchor, s, h))
  {
    assert ([h] + t)[1..] == t;
  }

  lemma {:induction false} SingleBlock(sc: Scoring, b: Block, run: Run)
    ensures VisitBlocks(sc, [b], run) == VisitBlock(sc, b.members, 0, run)
  {
    assert [b][1..] == [];
  }

  /** Which pairs of the table are similar at a given threshold. */
  lemma {:induction false} SimilarAt(threshold: int)
    ensures var sc := Scoring(Table, PairScore, threshold);
      && (Similar(sc, 0, 1) <==> 80 >= threshold)
      && (Similar(sc, 0, 2) <==> 0 >= threshold)
      && (Similar(sc, 0, 3) <==> 0 >= threshold)
      && (Similar(sc, 1, 2) <==> 90 >= threshold)
      && (Similar(sc, 1, 3) <==> 90 >= threshold)
      && (Similar(sc, 2, 3) <==> 0 >= threshold)
  {
    Scores();
    assert Table[0] == R0 && Table[1] == R1 && Table[2] == R2 && Table[3] == R3;
  }

  lemma {:induction false} FirstAnchorAtEighty()
    ensures VisitAnchor(Scoring(Table, PairScore, 80), [0, 1, 2, 3], 0, Run({}, [], 0))
         == Run({0, 1}, [Cluster(0, {0, 1})], 3)
  {
    var sc := Scoring(Table, PairScore, 80);
    SimilarAt(80);
    var m: seq<nat> := [0, 1, 2, 3];
    assert m[1..] == [1] + [2, 3];
    assert [2, 3] == [2] + [3] && [3] == [3] + [];
    var s1 := Sweep({0, 1}, {1}, 1);
    var s2 := Sweep({0, 1}, {1}, 2);
    var s3 := Sweep({0, 1}, {1}, 3);
    assert Compare(sc, 0, Sweep({0}, {}, 0), 1) == s1;
    assert Compare(sc, 0, s1, 2) == s2;
    assert Compare(sc, 0, s2, 3) == s3;
    SweepStep(sc, 0, 1, [2, 3], Sweep({0}, {}, 0));
    SweepStep(sc, 0, 2, [3], s1);
    SweepStep(sc, 0, 3, [], s2);
    assert SweepLater(sc, 0, [], s3) == s3;
    assert |{0, 1}| == 2;
  }

  lemma {:induction false} ThirdAnchorAtEighty()
    ensures VisitAnchor(Scoring(Table, PairScore, 80), [0, 1, 2, 3], 2, Run({0, 1}, [Cluster(0, {0, 1})], 3))
         == Run({0, 1, 2}, [Cluster(0, {0, 1})], 4)
  {
    var sc := Scoring(Table, PairScore, 80);
    SimilarAt(80);
    var m: seq<nat> := [0, 1, 2, 3];
    assert m[3..] == [3] + [];
    var s1 := Sweep({2}, {0, 1}, 4);
    assert Compare(sc, 2, Sweep({2}, {0, 1}, 3), 3) == s1;
    SweepStep(sc, 2, 3, [], Sweep({2}, {0, 1}, 3));
    assert SweepLater(sc, 2, [], s1) == s1;
    assert {0, 1} + {2} == {0, 1, 2};
  }

  lemma {:induction false} LaterAnchorsAtEighty()
    ensures VisitBlock(Scoring(Table, PairScore, 80), [0, 1, 2, 3], 1, Run({0, 1}, [Cluster(0, {0, 1})], 3))
         == Run({0, 1, 2, 3}, [Cluster(0, {0, 1})], 4)
  {
    var sc := Scoring(Table, PairScore, 80);
    var m: seq<nat> := [0, 1, 2, 3];
    ThirdAnchorAtEighty();
    var r1 := Run({0, 1}, [Cluster(0, {0, 1})], 3);
    var r3 := Run({0, 1, 2}, [Cluster(0, {0, 1})], 4);
    var r4 := Run({0, 1, 2, 3}, [Cluster(0, {0, 1})], 4);
    assert m[4..] == [];
    assert SweepLater(sc, 3, [], Sweep({3}, {0, 1, 2}, 4)) == Sweep({3}, {0, 1, 2}, 4);
    assert VisitAnchor(sc, m, 3, r3) == r4;
    assert VisitAnchor(sc, m, 1, r1) == r1;
    assert VisitBlock(sc, m, 3, r3) == r4;
    assert VisitBlock(sc, m, 2, r1) == r4;
  }

  lemma {:induction false} AtEighty()
    ensures Detect(Table, 80, 1, PairScore).clusters == [Cluster(0, {0, 1})]
  {
    TableBlocks();
    var sc := Scoring(Table, PairScore, 80);
    var m: seq<nat> := [0, 1, 2, 3];
    SingleBlock(sc, Block("a", m), Run({}, [], 0));
    FirstAnchorAtEighty();
    LaterAnchorsAtEighty();
  }

  lemma {:induction false} FirstAnchorAtEightyFive()
    ensures VisitAnchor(Scoring(Table, PairScore, 85), [0, 1, 2, 3], 0, Run({}, [], 0)) == Run({0}, [], 3)
  {
    var sc := Scoring(Table, PairScore, 85);
    SimilarAt(85);
    var m: seq<nat> := [0, 1, 2, 3];
    assert m[1..] == [1] + [2, 3];
    assert [2, 3] == [2] + [3] && [3] == [3] + [];
    var s1 := Sweep({0}, {}, 1);
    var s2 := Sweep({0}, {}, 2);
    var s3 := Sweep({0}, {}, 3);
    assert Compare(sc, 0, Sweep({0}, {}, 0), 1) == s1;
    assert Compare(sc, 0, s1, 2) == s2;
    assert Compare(sc, 0, s2, 3) == s3;
    SweepStep(sc, 0, 1, [2, 3], Sweep({0}, {}, 0));
    SweepStep(sc, 0, 2, [3], s1);
    SweepStep(sc, 0, 3, [], s2);
    assert SweepLater(sc, 0, [], s3) == s3;
  }

  lemma {:induction false} SecondAnchorAtEightyFive()
    ensures VisitAnchor(Scoring(Table, PairScore, 85), [0, 1, 2, 3], 1, Run({0}, [], 3))
         == Run({0, 1, 2, 3}, [Cluster(1, {1, 2, 3})], 5)
  {
    var sc := Scoring(Table, PairScore, 85);
    SimilarAt(85);
    var m: seq<nat> := [0, 1, 2, 3];
    assert m[2..] == [2] + [3];
    assert [3] == [3] + [];
    var s1 := Sweep({1, 2}, {0, 2}, 4);
    var s2 := Sweep({1, 2, 3}, {0, 2, 3}, 5);
    assert Compare(sc, 1, Sweep({1}, {0}, 3), 2) == s1;
    assert Compare(sc, 1, s1, 3) == s2;
    SweepStep(sc, 1, 2, [3], Sweep({1}, {0}, 3));
    SweepStep(sc, 1, 3, [], s1);
    assert SweepLater(sc, 1, [], s2) == s2;
    assert 2 in {1, 2, 3} && 1 in {1, 2, 3} && {1, 2} <= {1, 2, 3};
    assert {0, 2, 3} + {1} == {0, 1, 2, 3};
  }

  lemma {:induction false} AtEightyFive()
    ensures Detect(Table, 85, 1, PairScore).clusters == [Cluster(1, {1, 2, 3})]
  {
    TableBlocks();
    var sc := Scoring(Table, PairScore, 85);
    var m: seq<nat> := [0, 1, 2, 3];
    SingleBlock(sc, Block("a", m), Run({}, [], 0));
    FirstAnchorAtEightyFive();
    SecondAnchorAtEightyFive();
    var r2 := Run({0, 1, 2, 3}, [Cluster(1, {1, 2, 3})], 5);
    assert VisitAnchor(sc, m, 2, r2) == r2;
    assert VisitAnchor(sc, m, 3, r2) == r2;
    assert VisitBlock(sc, m, 4, r2) == r2;
    assert VisitBlock(sc, m, 2, r2) == r2;
  }

  /**
   A higher threshold can flag rows a lower one leaves unique, and a row
   similar to a grouped row need not be grouped.
   */
  lemma {:induction false} ThresholdNotMonotone()
    ensures var low := Flagged(Detect(Table, 80, 1, PairScore).clusters);
      var high := Flagged(Detect(Table, 85, 1, PairScore).clusters);
      && low == {0, 1}
      && high == {1, 2, 3}
      && !(high <= low)
      && PairScore(R1, R2) >= 80 && 1 in low && 2 !in low
  {
    AtEighty();
    AtEightyFive();
    FlaggedAppend([], Cluster(0, {0, 1}));
    FlaggedAppend([], Cluster(1, {1, 2, 3}));
    assert [] + [Cluster(0, {0, 1})] == [Cluster(0, {0, 1})];
    assert [] + [Cluster(1, {1, 2, 3})] == [Cluster(1, {1, 2, 3})];
    assert 2 in {1, 2, 3} && 2 !in {0, 1};
  }
}

=== FILE: grouping.dfy ===
/**
 Greedy grouping inside each block (find_duplicates, app.py lines 39-88).

 The blocks are walked in order. Inside a block every row not yet processed
 becomes an anchor, is compared with every later unprocessed row of the same
 block, and takes each row whose score against it reaches the threshold.
 The rows it takes, and the anchor itself, are then processed. A cluster is
 emitted when the anchor took at least one row.

 The loops are modelled as functions over an explicit state: `Sweep` for the
 inner loop (lines 65-80), `Run` for the two outer ones.
 */
module Grouping {
  import opened Records
  import opened Blocking

  /**
   The similarity test. `score` stands for calculate_similarity (the fuzzy
   token-set ratio of two rows' comparison texts, in hundredths) and is
   otherwise unconstrained; a pair is similar when its score reaches the
   threshold.
   */
  datatype Scoring = Scoring(rows: seq<Row>, score: (Row, Row) -> int, threshold: int)

  predicate Similar(sc: Scoring, i: nat, j: nat)
  {
    i < |sc.rows| && j < |sc.rows| && sc.score(sc.rows[i], sc.rows[j]) >= sc.threshold
  }

  /** An emitted group, with the anchor (`idx1`) it was built around. */
  datatype Cluster = Cluster(anchor: nat, members: set<nat>)

  /** State of the inner loop: `current_group`, `processed`, `comparison_count`. */
  datatype Sweep = Sweep(group: set<nat>, processed: set<nat>, comparisons: nat)

  /** State of the outer loops: `processed`, `duplicate_groups`, `comparison_count`. */
  datatype Run = Run(processed: set<nat>, clusters: seq<Cluster>, comparisons: nat)

  /** One pass of the inner loop body (lines 66-80) for the later row `idx2`. */
  function Compare(sc: Scoring, anchor: nat, s: Sweep, idx2: nat): Sweep
  {
    if idx2 in s.processed then s
    else if Similar(sc, anchor, idx2) then Sweep(s.group + {idx2}, s.processed + {idx2}, s.comparisons + 1)
    else s.(comparisons := s.comparisons + 1)
  }

  /** The inner loop over the rows after the anchor in its block (line 65). */
  function SweepLater(sc: Scoring, anchor: nat, later: seq<nat>, s: Sweep): Sweep
    decreases |later|
  {
    if later == [] then s
    else SweepLater(sc, anchor, later[1..], Compare(sc, anchor, s, later[0]))
  }

  /** The rows of `later` an anchor takes: unprocessed and similar to it. */
  function Joined(sc: Scoring, anchor: nat, later: seq<nat>, processed: set<nat>): set<nat>
  {
    set x | x in later && x !in processed && Similar(sc, anchor, x)
  }

  /**
   The inner loop takes exactly the unprocessed later rows similar to the
   anchor, marks exactly those processed, and compares at most once per row.
   */
  lemma {:induction false} SweepLaterJoins(sc: Scoring, anchor: nat, later: seq<nat>, s: Sweep)
    ensures SweepLater(sc, anchor, later, s).group == s.group + Joined(sc, anchor, later, s.processed)
    ensures SweepLater(sc, anchor, later, s).processed == s.processed + Joined(sc, anchor, later, s.processed)
    ensures s.comparisons <= SweepLater(sc, anchor, later, s).comparisons <= s.comparisons + |later|
    decreases |later|
  {
    if later != [] {
      var h := later[0];
      var t := later[1..];
      var s' := Compare(sc, anchor, s, h);
      SweepLaterJoins(sc, anchor, t, s');
      var P := s.processed;
      assert forall x :: x in later <==> x == h || x in t;
      if h in P {
        assert Joined(sc, anchor, later, P) == Joined(sc, anchor, t, P);
      } else if Similar(sc, anchor, h) {
        assert Joined(sc, anchor, t, P + {h}) == Joined(sc, anchor, t, P) - {h};
        assert Joined(sc, anchor, later, P) == {h} + Joined(sc, anchor, t, P);
      } else {
        assert Joined(sc, anchor, later, P) == Joined(sc, anchor, t, P);
      }
    }
  }

  /** One pass of the loop at line 58 for position `i` of the block `m`. */
  function VisitAnchor(sc: Scoring, m: seq<nat>, i: nat, run: Run): Run
    requires i < |m|
  {
    var idx1 := m[i];
    if idx1 in run.processed then run
    else
      var s := SweepLater(sc, idx1, m[i + 1..], Sweep({idx1}, run.processed, run.comparisons));
      var clusters := if |s.group| > 1 then run.clusters + [Cluster(idx1, s.group)] else run.clusters;
      Run(s.processed + {idx1}, clusters, s.comparisons)
  }

  /** The loop at line 58 from position `i` of the block `m` on. */
  function VisitBlock(sc: Scoring, m: seq<nat>, i: nat, run: Run): Run
    requires i <= |m|
    decreases |m| - i
  {
    if i == |m| then run else VisitBlock(sc, m, i + 1, VisitAnchor(sc, m, i, run))
  }

  /** The loop at line 55 over the remaining blocks. */
  function VisitBlocks(sc: Scoring, bs: seq<Block>, run: Run): Run
    decreases |bs|
  {
    if bs == [] then run else VisitBlocks(sc, bs[1..], VisitBlock(sc, bs[0].members, 0, run))
  }

  /**
   find_duplicates (app.py lines 39-88) without its progress display: the
   clusters in emission order, and the number of similarity evaluations.
   */
  function Detect(rows: seq<Row>, threshold: int, leadingChars: nat, score: (Row, Row) -> int): Run
  {
    VisitBlocks(Scoring(rows, score, threshold), ComparisonGroups(rows, leadingChars), Run({}, [], 0))
  }

  // ---------------------------------------------------------------------
  // Counting similarity evaluations
  // ---------------------------------------------------------------------

  lemma {:induction false} VisitAnchorCount(sc: Scoring, m: seq<nat>, i: nat, run: Run)
    requires i < |m|
    ensures run.comparisons <= VisitAnchor(sc, m, i, run).comparisons <= run.comparisons + (|m| - i - 1)
  {
    if m[i] !in run.processed {
      SweepLaterJoins(sc, m[i], m[i + 1..], Sweep({m[i]}, run.processed, run.comparisons));
    }
  }

  lemma {:induction false} VisitBlockCount(sc: Scoring, m: seq<nat>, i: nat, run: Run)
    requires i <= |m|
    ensures run.comparisons <= VisitBlock(sc, m, i, run).comparisons <= run.comparisons + Pairs(|m| - i)
    decreases |m| - i
  {
    if i < |m| {
      var next := VisitAnchor(sc, m, i, run);
      VisitAnchorCount(sc, m, i, run);
      VisitBlockCount(sc, m, i + 1, next);
      PairsStep(|m| - i - 1);
    }
  }

  lemma {:induction false} VisitBlocksCount(sc: Scoring, bs: seq<Block>, run: Run)
    ensures run.comparisons <= VisitBlocks(sc, bs, run).comparisons <= run.comparisons + TotalComparisons(bs)
    decreases |bs|
  {
    if bs != [] {
      var next := VisitBlock(sc, bs[0].members, 0, run);
      VisitBlockCount(sc, bs[0].members, 0, run);
      VisitBlocksCount(sc, bs[1..], next);
    }
  }

  /**
   The comparison counter never passes the total computed beforehand
   (lines 51, 65-72), so the progress fraction stays within 1; and that total
   is itself at most the number of pairs of the whole table.
   */
  lemma {:induction false} ComparisonsWithinTotal(rows: seq<Row>, threshold: int, leadingChars: nat,
                                                 score: (Row, Row) -> int)
    ensures Detect(rows, threshold, leadingChars, score).comparisons
            <= TotalComparisons(ComparisonGroups(rows, leadingChars))
            <= Pairs(|rows|)
  {
    VisitBlocksCount(Scoring(rows, score, threshold), ComparisonGroups(rows, leadingChars), Run({}, [], 0));
    ComparisonsWithinAllPairs(rows, leadingChars);
  }

  // ---------------------------------------------------------------------
  // What the emitted clusters satisfy
  // ---------------------------------------------------------------------

  /** The rows in any of the clusters. */
  function Flagged(cs: seq<Cluster>): set<nat>
  {
    if cs == [] then {} else Flagged(cs[..|cs| - 1]) + cs[|cs| - 1].members
  }

  /** The shape of the blocks the grouping relies on. */
  ghost predicate Layout(all: seq<Block>)
  {
    && (forall a :: 0 <= a < |all| ==> StrictlyIncreasing(all[a].members))
    && Disjoint(all)
  }

  /** Rows `i` and `j` lie in one block. */
  ghost predicate Cohabit(all: seq<Block>, i: nat, j: nat)
  {
    exists a :: 0 <= a < |all| && i in all[a].members && j in all[a].members
  }

  /** Every cluster has at least two rows (line 82). */
  ghost predicate ClustersSized(cs: seq<Cluster>)
  {
    forall k :: 0 <= k < |cs| ==> |cs[k].members| >= 2
  }

  /** Every cluster holds its anchor, and all of its rows are processed. */
  ghost predicate ClustersClaimed(cs: seq<Cluster>, processed: set<nat>)
  {
    forall k :: 0 <= k < |cs| ==> cs[k].anchor in cs[k].members && cs[k].members <= processed
  }

  /** No row is in two clusters. */
  ghost predicate ClustersDisjoint(cs: seq<Cluster>)
  {
    forall k, l :: 0 <= k < l < |cs| ==> cs[k].members !! cs[l].members
  }

  /** Every other row of a cluster comes after its anchor and is similar to it. */
  ghost predicate StarShaped(sc: Scoring, cs: seq<Cluster>)
  {
    forall k, x :: 0 <= k < |cs| && x in cs[k].members && x != cs[k].anchor ==>
      cs[k].anchor < x && Similar(sc, cs[k].anchor, x)
  }

  /** Every cluster lies inside one block. */
  ghost predicate WithinBlocks(all: seq<Block>, cs: seq<Cluster>)
  {
    forall k :: 0 <= k < |cs| ==> exists a :: 0 <= a < |all| && cs[k].members <= Elements(all[a].members)
  }

  /**
   The greedy rule: a row after the anchor in the anchor's block is in the
   cluster exactly when it is similar to the anchor and no earlier cluster
   took it.
   */
  ghost predicate Greedy(sc: Scoring, all: seq<Block>, cs: seq<Cluster>)
  {
    forall k, x :: 0 <= k < |cs| && Cohabit(all, cs[k].anchor, x) && cs[k].anchor < x ==>
      (x in cs[k].members <==> Similar(sc, cs[k].anchor, x) && x !in Flagged(cs[..k]))
  }

  ghost predicate RunInv(sc: Scoring, all: seq<Block>, run: Run)
  {
    && ClustersSized(run.clusters)
    && ClustersClaimed(run.clusters, run.processed)
    && ClustersDisjoint(run.clusters)
    && StarShaped(sc, run.clusters)
    && WithinBlocks(all, run.clusters)
    && Greedy(sc, all, run.clusters)
  }

  /** Inside the block being walked, every processed row from position `i` on is in a cluster. */
  ghost predicate PendingFlagged(m: seq<nat>, i: nat, run: Run)
  {
    forall j :: i <= j < |m| && m[j] in run.processed ==> m[j] in Flagged(run.clusters)
  }

  /** No row of the blocks from `from` on is processed. */
  ghost predicate Untouched(all: seq<Block>, from: nat, processed: set<nat>)
  {
    forall c, x :: from <= c < |all| && x in all[c].members ==> x !in processed
  }

  lemma {:induction false} FlaggedAppend(cs: seq<Cluster>, c: Cluster)
    ensures Flagged(cs + [c]) == Flagged(cs) + c.members
    ensures (cs + [c])[..|cs|] == cs
  {
    assert (cs + [c])[..|cs|] == cs;
  }

  lemma {:induction false} FlaggedMember(cs: seq<Cluster>, x: nat)
    ensures x in Flagged(cs) <==> exists k :: 0 <= k < |cs| && x in cs[k].members
    decreases |cs|
  {
    if cs != [] {
      var init := cs[..|cs| - 1];
      FlaggedMember(init, x);
      if x in Flagged(init) {
        var k :| 0 <= k < |init| && x in init[k].members;
        assert cs[k] == init[k];
      }
      if exists k :: 0 <= k < |cs| && x in cs[k].members {
        var k :| 0 <= k < |cs| && x in cs[k].members;
        if k < |init| {
          assert init[k] == cs[k];
        }
      }
    }
  }

  lemma {:induction false} FlaggedProcessed(cs: seq<Cluster>, processed: set<nat>)
    requires ClustersClaimed(cs, processed)
    ensures Flagged(cs) <= processed
  {
    forall x | x in Flagged(cs)
      ensures x in processed
    {
      FlaggedMember(cs, x);
      var k :| 0 <= k < |cs| && x in cs[k].members;
    }
  }

  /** A row lies in at most one block. */
  lemma {:induction false} OneBlock(all: seq<Block>, a: nat, b: nat, x: nat)
    requires Disjoint(all)
    requires a < |all| && b < |all|
    requires x in all[a].members && x in all[b].members
    ensures a == b
  {
  }

  /** In a strictly increasing sequence, a row after position `i`'s value sits after position `i`. */
  lemma {:induction false} LaterPosition(m: seq<nat>, i: nat, x: nat)
    requires StrictlyIncreasing(m)
    requires i < |m| && x in m && m[i] < x
    ensures x in m[i + 1..]
  {
    var j :| 0 <= j < |m| && m[j] == x;
    assert i < j;
    assert m[i + 1..][j - i - 1] == x;
  }

  /** The rows an anchor takes come after it in its block, are unprocessed, and are similar to it. */
  lemma {:induction false} JoinedLater(sc: Scoring, m: seq<nat>, i: nat, processed: set<nat>)
    requires StrictlyIncreasing(m) && i < |m|
    ensures forall x :: x in Joined(sc, m[i], m[i + 1..], processed) ==>
      x in m && m[i] < x && x !in processed && Similar(sc, m[i], x)
  {
    var later := m[i + 1..];
    forall x | x in Joined(sc, m[i], later, processed)
      ensures x in m && m[i] < x
    {
      var j :| 0 <= j < |later| && later[j] == x;
      assert m[i + 1 + j] == x;
    }
  }

  /** What one anchor visit does, in closed form. */
  lemma {:induction false} AnchorEffect(sc: Scoring, m: seq<nat>, i: nat, run: Run)
    requires StrictlyIncreasing(m)
    requires i < |m| && m[i] !in run.processed
    ensures var a := m[i];
      var J := Joined(sc, a, m[i + 1..], run.processed);
      var next := VisitAnchor(sc, m, i, run);
      && next.processed == run.processed + J + {a}
      && a !in J
      && (J != {} ==> next.clusters == run.clusters + [Cluster(a, J + {a})])
      && (J == {} ==> next.clusters == run.clusters)
  {
    var a := m[i];
    var J := Joined(sc, a, m[i + 1..], run.processed);
    var s := SweepLater(sc, a, m[i + 1..], Sweep({a}, run.processed, run.comparisons));
    SweepLaterJoins(sc, a, m[i + 1..], Sweep({a}, run.processed, run.comparisons));
    JoinedLater(sc, m, i, run.processed);
    assert s.group == J + {a};
    if J != {} {
      var y :| y in J;
      assert {a, y} <= s.group;
      assert |{a, y}| == 2;
    } else {
      assert s.group == {a};
    }
  }

  lemma {:induction false} EmitGreedy(sc: Scoring, all: seq<Block>, b: nat, i: nat, run: Run, J: set<nat>)
    requires Layout(all) && b < |all| && i < |all[b].members|
    requires ClustersClaimed(run.clusters, run.processed) && Greedy(sc, all, run.clusters)
    requires PendingFlagged(all[b].members, i, run)
    requires J == Joined(sc, all[b].members[i], all[b].members[i + 1..], run.processed)
    ensures Greedy(sc, all, run.clusters + [Cluster(all[b].members[i], J + {all[b].members[i]})])
  {
    var m := all[b].members;
    var a := m[i];
    var cs := run.clusters;
    var c := Cluster(a, J + {a});
    var cs' := cs + [c];
    FlaggedAppend(cs, c);
    FlaggedProcessed(cs, run.processed);
    forall k, x | 0 <= k < |cs'| && Cohabit(all, cs'[k].anchor, x) && cs'[k].anchor < x
      ensures x in cs'[k].members <==> Similar(sc, cs'[k].anchor, x) && x !in Flagged(cs'[..k])
    {
      if k < |cs| {
        assert cs'[..k] == cs[..k];
        assert cs'[k] == cs[k];
      } else {
        var a' :| 0 <= a' < |all| && a in all[a'].members && x in all[a'].members;
        assert a in m;
        OneBlock(all, a', b, a);
        LaterPosition(m, i, x);
        var j :| 0 <= j < |m[i + 1..]| && m[i + 1..][j] == x;
        assert m[i + 1 + j] == x;
      }
    }
  }

  /** The rows an anchor takes, as the appending lemmas below assume them. */
  ghost predicate Takes(sc: Scoring, m: seq<nat>, a: nat, J: set<nat>, processed: set<nat>)
  {
    && a !in processed
    && forall x :: x in J ==> x in m && a < x && x !in processed && Similar(sc, a, x)
  }

  lemma {:induction false} EmitSized(cs: seq<Cluster>, processed: set<nat>, a: nat, J: set<nat>)
    requires ClustersSized(cs) && ClustersClaimed(cs, processed) && ClustersDisjoint(cs)
    requires a !in processed && J !! processed && a !in J && J != {}
    ensures var cs' := cs + [Cluster(a, J + {a})];
      ClustersSized(cs') && ClustersClaimed(cs', processed + J + {a}) && ClustersDisjoint(cs')
  {
    var c := Cluster(a, J + {a});
    var cs' := cs + [c];
    var y :| y in J;
    assert {a, y} <= c.members;
    assert |{a, y}| == 2;
    forall k | 0 <= k < |cs|
      ensures cs[k].members !! c.members
    {
      assert cs[k].members <= processed;
    }
  }

  lemma {:induction false} EmitStar(sc: Scoring, all: seq<Block>, b: nat, cs: seq<Cluster>, processed: set<nat>,
                                    a: nat, J: set<nat>)
    requires b < |all| && a in all[b].members
    requires StarShaped(sc, cs) && WithinBlocks(all, cs)
    requires Takes(sc, all[b].members, a, J, processed)
    ensures var cs' := cs + [Cluster(a, J + {a})];
      StarShaped(sc, cs') && WithinBlocks(all, cs')
  {
    var c := Cluster(a, J + {a});
    var cs' := cs + [c];
    assert c.members <= Elements(all[b].members);
    assert cs'[|cs|] == c;
  }

  lemma {:induction false} EmitPending(sc: Scoring, m: seq<nat>, i: nat, run: Run, J: set<nat>)
    requires StrictlyIncreasing(m) && i < |m|
    requires PendingFlagged(m, i, run)
    ensures var next := Run(run.processed + J + {m[i]}, run.clusters + [Cluster(m[i], J + {m[i]})], run.comparisons);
      PendingFlagged(m, i + 1, next)
  {
    var c := Cluster(m[i], J + {m[i]});
    FlaggedAppend(run.clusters, c);
    forall j | i + 1 <= j < |m| && m[j] in run.processed + J + {m[i]}
      ensures m[j] in Flagged(run.clusters + [c])
    {
      assert m[i] < m[j];
    }
  }

  lemma {:induction false} EmitKeeps(sc: Scoring, all: seq<Block>, b: nat, i: nat, run: Run)
    requires Layout(all) && b < |all| && i < |all[b].members|
    requires all[b].members[i] !in run.processed
    requires RunInv(sc, all, run) && PendingFlagged(all[b].members, i, run)
    ensures RunInv(sc, all, VisitAnchor(sc, all[b].members, i, run))
    ensures PendingFlagged(all[b].members, i + 1, VisitAnchor(sc, all[b].members, i, run))
  {
    var m := all[b].members;
    var a := m[i];
    var J := Joined(sc, a, m[i + 1..], run.processed);
    var next := VisitAnchor(sc, m, i, run);
    AnchorEffect(sc, m, i, run);
    JoinedLater(sc, m, i, run.processed);
    if J == {} {
      forall j | i + 1 <= j < |m| && m[j] in next.processed
        ensures m[j] in Flagged(next.clusters)
      {
        assert m[i] < m[j];
      }
    } else {
      assert a in m;
      EmitSized(run.clusters, run.processed, a, J);
      EmitStar(sc, all, b, run.clusters, run.processed, a, J);
      EmitGreedy(sc, all, b, i, run, J);
      EmitPending(sc, m, i, run, J);
    }
  }

  /** One anchor visit keeps the invariant and only processes rows of its block. */
  lemma {:induction false} AnchorKeeps(sc: Scoring, all: seq<Block>, b: nat, i: nat, run: Run)
    requires Layout(all) && b < |all| && i < |all[b].members|
    requires RunInv(sc, all, run) && PendingFlagged(all[b].members, i, run)
    ensures var next := VisitAnchor(sc, all[b].members, i, run);
      && RunInv(sc, all, next)
      && PendingFlagged(all[b].members, i + 1, next)
      && run.processed <= next.processed <= run.processed + Elements(all[b].members)
  {
    var m := all[b].members;
    if m[i] !in run.processed {
      EmitKeeps(sc, all, b, i, run);
      AnchorEffect(sc, m, i, run);
    }
  }

  /** Walking the rest of a block keeps the invariant and only processes rows of that block. */
  lemma {:induction false} BlockKeeps(sc: Scoring, all: seq<Block>, b: nat, i: nat, run: Run)
    requires Layout(all) && b < |all| && i <= |all[b].members|
    requires RunInv(sc, all, run) && PendingFlagged(all[b].members, i, run)
    ensures var next := VisitBlock(sc, all[b].members, i, run);
      && RunInv(sc, all, next)
      && run.processed <= next.processed <= run.processed + Elements(all[b].members)
    decreases |all[b].members| - i
  {
    if i < |all[b].members| {
      AnchorKeeps(sc, all, b, i, run);
      BlockKeeps(sc, all, b, i + 1, VisitAnchor(sc, all[b].members, i, run));
    }
  }

  /** Walking the blocks from `b` on keeps the invariant. */
  lemma {:induction false} BlocksKeep(sc: Scoring, all: seq<Block>, b: nat, run: Run)
    requires Layout(all) && b <= |all|
    requires RunInv(sc, all, run) && Untouched(all, b, run.processed)
    ensures RunInv(sc, all, VisitBlocks(sc, all[b..], run))
    decreases |all| - b
  {
    if b < |all| {
      var m := all[b].members;
      assert all[b..][0] == all[b] && all[b..][1..] == all[b + 1..];
      assert PendingFlagged(m, 0, run) by {
        forall j | 0 <= j < |m|
          ensures m[j] !in run.processed
        {
          assert m[j] in all[b].members;
        }
      }
      BlockKeeps(sc, all, b, 0, run);
      var next := VisitBlock(sc, m, 0, run);
      forall c, x | b + 1 <= c < |all| && x in all[c].members
        ensures x !in next.processed
      {
        assert x !in m;
      }
      BlocksKeep(sc, all, b + 1, next);
    }
  }

  // ---------------------------------------------------------------------
  // The result of find_duplicates, in terms of the rows
  // ---------------------------------------------------------------------

  /** Rows `i` and `j` both have a bucket key, and it is the same. */
  ghost predicate SameKey(rows: seq<Row>, leadingChars: nat, i: nat, j: nat)
  {
    && i < |rows| && j < |rows|
    && BlockKey(rows[i], leadingChars).Some?
    && BlockKey(rows[i], leadingChars) == BlockKey(rows[j], leadingChars)
  }

  lemma {:induction false} DetectInvariant(rows: seq<Row>, threshold: int, leadingChars: nat,
                                          score: (Row, Row) -> int)
    ensures RunInv(Scoring(rows, score, threshold), ComparisonGroups(rows, leadingChars),
                   Detect(rows, threshold, leadingChars, score))
  {
    var all := ComparisonGroups(rows, leadingChars);
    ComparisonGroupsSound(rows, leadingChars);
    assert all[0..] == all;
    BlocksKeep(Scoring(rows, score, threshold), all, 0, Run({}, [], 0));
  }

  /** A row of a cluster lies in the block of the cluster's anchor. */
  lemma {:induction false} MemberInAnchorBlock(all: seq<Block>, c: Cluster, x: nat)
    requires c.anchor in c.members && x in c.members
    requires exists a :: 0 <= a < |all| && c.members <= Elements(all[a].members)
    ensures exists a :: 0 <= a < |all| && c.anchor in all[a].members && x in all[a].members
  {
    var a :| 0 <= a < |all| && c.members <= Elements(all[a].members);
    assert c.anchor in Elements(all[a].members) && x in Elements(all[a].members);
  }

  /**
   Every group find_duplicates returns has at least two rows, holds its
   anchor, and no row is in two groups; every other row of a group comes
   after the anchor and scores at least the threshold against it; and every
   row of a group has the anchor's bucket key.
   */
  lemma {:induction false} DetectClusters(rows: seq<Row>, threshold: int, leadingChars: nat,
                                         score: (Row, Row) -> int)
    ensures var cs := Detect(rows, threshold, leadingChars, score).clusters;
      && (forall k :: 0 <= k < |cs| ==> |cs[k].members| >= 2 && cs[k].anchor in cs[k].members)
      && ClustersDisjoint(cs)
      && (forall k, x :: 0 <= k < |cs| && x in cs[k].members ==>
            && SameKey(rows, leadingChars, cs[k].anchor, x)
            && (x != cs[k].anchor ==> cs[k].anchor < x && score(rows[cs[k].anchor], rows[x]) >= threshold))
  {
    var sc := Scoring(rows, score, threshold);
    var all := ComparisonGroups(rows, leadingChars);
    var cs := Detect(rows, threshold, leadingChars, score).clusters;
    DetectInvariant(rows, threshold, leadingChars, score);
    ComparisonGroupsSound(rows, leadingChars);
    forall k, x | 0 <= k < |cs| && x in cs[k].members
      ensures SameKey(rows, leadingChars, cs[k].anchor, x)
    {
      MemberInAnchorBlock(all, cs[k], x);
      var a :| 0 <= a < |all| && cs[k].anchor in all[a].members && x in all[a].members;
      assert BlockKey(rows[x], leadingChars) == Some(all[a].key);
      assert BlockKey(rows[cs[k].anchor], leadingChars) == Some(all[a].key);
    }
  }

  /** Two rows with the same bucket key lie in one returned block. */
  lemma {:induction false} SameKeyCohabit(rows: seq<Row>, leadingChars: nat, i: nat, j: nat)
    requires SameKey(rows, leadingChars, i, j) && i != j
    ensures Cohabit(ComparisonGroups(rows, leadingChars), i, j)
  {
    var all := ComparisonGroups(rows, leadingChars);
    ComparisonGroupsSound(rows, leadingChars);
    ComparisonGroupsComplete(rows, leadingChars);
    assert SharesKey(rows, leadingChars, i);
    assert SharesKey(rows, leadingChars, j);
    var a :| 0 <= a < |all| && i in all[a].members;
    var b :| 0 <= b < |all| && j in all[b].members;
    assert Some(all[a].key) == BlockKey(rows[i], leadingChars) == BlockKey(rows[j], leadingChars) == Some(all[b].key);
    assert a == b;
  }

  /**
   The greedy rule, in terms of rows: a row after the anchor with the
   anchor's bucket key is in the anchor's group exactly when it scores at
   least the threshold against the anchor and no earlier group took it.
   */
  lemma {:induction false} DetectGreedy(rows: seq<Row>, threshold: int, leadingChars: nat,
                                       score: (Row, Row) -> int)
    ensures var cs := Detect(rows, threshold, leadingChars, score).clusters;
      forall k, x :: 0 <= k < |cs| && cs[k].anchor < x && SameKey(rows, leadingChars, cs[k].anchor, x) ==>
        (x in cs[k].members <==>
           score(rows[cs[k].anchor], rows[x]) >= threshold && x !in Flagged(cs[..k]))
  {
    var cs := Detect(rows, threshold, leadingChars, score).clusters;
    DetectInvariant(rows, threshold, leadingChars, score);
    forall k, x | 0 <= k < |cs| && cs[k].anchor < x && SameKey(rows, leadingChars, cs[k].anchor, x)
      ensures x in cs[k].members <==> score(rows[cs[k].anchor], rows[x]) >= threshold && x !in Flagged(cs[..k])
    {
      SameKeyCohabit(rows, leadingChars, cs[k].anchor, x);
    }
  }

  // ---------------------------------------------------------------------
  // No similar pair of a block is left entirely ungrouped
  // ---------------------------------------------------------------------

  /** Every later row of `m` similar to `x` is grouped, unless `x` itself is. */
  ghost predicate PairsCovered(sc: Scoring, m: seq<nat>, x: nat, cs: seq<Cluster>)
  {
    forall y :: y in m && x < y && Similar(sc, x, y) ==> x in Flagged(cs) || y in Flagged(cs)
  }

  /**
   The rows already walked as anchors, that is every row of the blocks
   before `b` and the rows before position `i` of block `b`, have all their
   similar later rows covered.
   */
  ghost predicate MaxSoFar(sc: Scoring, all: seq<Block>, b: nat, i: nat, cs: seq<Cluster>)
  {
    forall c, p :: 0 <= c < |all| && 0 <= p < |all[c].members| && (c < b || (c == b && p < i)) ==>
      PairsCovered(sc, all[c].members, all[c].members[p], cs)
  }

  /** Clusters only accumulate during an anchor visit. */
  lemma {:induction false} AnchorFlaggedGrows(sc: Scoring, m: seq<nat>, i: nat, run: Run)
    requires StrictlyIncreasing(m) && i < |m|
    ensures Flagged(run.clusters) <= Flagged(VisitAnchor(sc, m, i, run).clusters)
  {
    if m[i] !in run.processed {
      AnchorEffect(sc, m, i, run);
      var J := Joined(sc, m[i], m[i + 1..], run.processed);
      if J != {} {
        FlaggedAppend(run.clusters, Cluster(m[i], J + {m[i]}));
      }
    }
  }

  /**
   After the visit of the anchor at position `i`, each later row of its block
   that is similar to it is grouped, or the anchor is: an already processed
   row was grouped earlier, and an unprocessed one is taken by the anchor.
   */
  lemma {:induction false} AnchorPairFlagged(sc: Scoring, m: seq<nat>, i: nat, run: Run)
    requires StrictlyIncreasing(m) && i < |m|
    requires PendingFlagged(m, i, run)
    ensures PairsCovered(sc, m, m[i], VisitAnchor(sc, m, i, run).clusters)
  {
    var a := m[i];
    var next := VisitAnchor(sc, m, i, run);
    AnchorFlaggedGrows(sc, m, i, run);
    if a in run.processed {
      assert a in Flagged(run.clusters);
    } else {
      var J := Joined(sc, a, m[i + 1..], run.processed);
      AnchorEffect(sc, m, i, run);
      forall y | y in m && a < y && Similar(sc, a, y)
        ensures a in Flagged(next.clusters) || y in Flagged(next.clusters)
      {
        LaterPosition(m, i, y);
        var j :| 0 <= j < |m| && m[j] == y;
        assert i < j;
        if y in run.processed {
          assert y in Flagged(run.clusters);
        } else {
          assert y in J;
          FlaggedAppend(run.clusters, Cluster(a, J + {a}));
        }
      }
    }
  }

  lemma {:induction false} MaxGrows(sc: Scoring, all: seq<Block>, b: nat, i: nat, cs: seq<Cluster>, cs': seq<Cluster>)
    requires MaxSoFar(sc, all, b, i, cs) && Flagged(cs) <= Flagged(cs')
    ensures MaxSoFar(sc, all, b, i, cs')
  {
    forall c, p | 0 <= c < |all| && 0 <= p < |all[c].members| && (c < b || (c == b && p < i))
      ensures PairsCovered(sc, all[c].members, all[c].members[p], cs')
    {
      assert PairsCovered(sc, all[c].members, all[c].members[p], cs);
    }
  }

  /** Walking the rest of block `b` covers the pairs of every anchor in it. */
  lemma {:induction false} BlockMax(sc: Scoring, all: seq<Block>, b: nat, i: nat, run: Run)
    requires Layout(all) && b < |all| && i <= |all[b].members|
    requires RunInv(sc, all, run) && PendingFlagged(all[b].members, i, run)
    requires MaxSoFar(sc, all, b, i, run.clusters)
    ensures MaxSoFar(sc, all, b + 1, 0, VisitBlock(sc, all[b].members, i, run).clusters)
    decreases |all[b].members| - i
  {
    var m := all[b].members;
    if i < |m| {
      var next := VisitAnchor(sc, m, i, run);
      AnchorKeeps(sc, all, b, i, run);
      AnchorFlaggedGrows(sc, m, i, run);
      AnchorPairFlagged(sc, m, i, run);
      MaxGrows(sc, all, b, i, run.clusters, next.clusters);
      BlockMax(sc, all, b, i + 1, next);
    }
  }

  /** Walking the blocks from `b` on covers the pairs of every anchor. */
  lemma {:induction false} BlocksMax(sc: Scoring, all: seq<Block>, b: nat, run: Run)
    requires Layout(all) && b <= |all|
    requires RunInv(sc, all, run) && Untouched(all, b, run.processed)
    requires MaxSoFar(sc, all, b, 0, run.clusters)
    ensures MaxSoFar(sc, all, |all|, 0, VisitBlocks(sc, all[b..], run).clusters)
    decreases |all| - b
  {
    if b < |all| {
      var m := all[b].members;
      assert all[b..][0] == all[b] && all[b..][1..] == all[b + 1..];
      assert PendingFlagged(m, 0, run) by {
        forall j | 0 <= j < |m|
          ensures m[j] !in run.processed
        {
          assert m[j] in all[b].members;
        }
      }
      BlockKeeps(sc, all, b, 0, run);
      BlockMax(sc, all, b, 0, run);
      var next := VisitBlock(sc, m, 0, run);
      forall c, x | b + 1 <= c < |all| && x in all[c].members
        ensures x !in next.processed
      {
        assert x !in m;
      }
      BlocksMax(sc, all, b + 1, next);
    }
  }

  /** Once every block is walked, a similar pair with the same key has a grouped row. */
  lemma {:induction false} SimilarPairCovered(rows: seq<Row>, leadingChars: nat, sc: Scoring, cs: seq<Cluster>,
                                             i: nat, j: nat)
    requires sc.rows == rows
    requires MaxSoFar(sc, ComparisonGroups(rows, leadingChars), |ComparisonGroups(rows, leadingChars)|, 0, cs)
    requires i < j && SameKey(rows, leadingChars, i, j) && Similar(sc, i, j)
    ensures i in Flagged(cs) || j in Flagged(cs)
  {
    var all := ComparisonGroups(rows, leadingChars);
    SameKeyCohabit(rows, leadingChars, i, j);
    var c :| 0 <= c < |all| && i in all[c].members && j in all[c].members;
    var p :| 0 <= p < |all[c].members| && all[c].members[p] == i;
    assert PairsCovered(sc, all[c].members, i, cs);
  }

  /**
   Two rows with the same bucket key whose score reaches the threshold are
   never both left out of the groups: the earlier one either took the later
   one as its anchor, or one of them had already been taken.
   */
  lemma {:induction false} DetectMaximal(rows: seq<Row>, threshold: int, leadingChars: nat,
                                        score: (Row, Row) -> int)
    ensures var cs := Detect(rows, threshold, leadingChars, score).clusters;
      forall i: nat, j: nat :: i < j && SameKey(rows, leadingChars, i, j) && score(rows[i], rows[j]) >= threshold ==>
        i in Flagged(cs) || j in Flagged(cs)
  {
    var sc := Scoring(rows, score, threshold);
    var all := ComparisonGroups(rows, leadingChars);
    var cs := Detect(rows, threshold, leadingChars, score).clusters;
    ComparisonGroupsSound(rows, leadingChars);
    assert all[0..] == all;
    BlocksMax(sc, all, 0, Run({}, [], 0));
    forall i: nat, j: nat | i < j && SameKey(rows, leadingChars, i, j) && score(rows[i], rows[j]) >= threshold
      ensures i in Flagged(cs) || j in Flagged(cs)
    {
      SimilarPairCovered(rows, leadingChars, sc, cs, i, j);
    }
  }

  // ---------------------------------------------------------------------
  // Which rows become anchors
  // ---------------------------------------------------------------------

  /**
   Every cluster holding a row of the block `m` is anchored at one of the
   first `i` positions of `m`.
   */
  ghost predicate AnchorsBefore(m: seq<nat>, i: nat, cs: seq<Cluster>)
    requires i <= |m|
  {
    forall k, x :: 0 <= k < |cs| && x in cs[k].members && x in m ==> cs[k].anchor in m[..i]
  }

  /**
   The anchor rule for the row `a` of block `m`: `a` is grouped, or every
   later row of `m` similar to it was taken by a cluster anchored before `a`.
   */
  ghost predicate AnchorRule(sc: Scoring, m: seq<nat>, a: nat, cs: seq<Cluster>)
  {
    a in Flagged(cs) ||
    forall y :: y in m && a < y && Similar(sc, a, y) ==>
      exists k :: 0 <= k < |cs| && cs[k].anchor < a && y in cs[k].members
  }

  /** The anchor rule holds for every row already walked as an anchor. */
  ghost predicate AnchorRuleSoFar(sc: Scoring, all: seq<Block>, b: nat, i: nat, cs: seq<Cluster>)
  {
    forall c, p :: 0 <= c < |all| && 0 <= p < |all[c].members| && (c < b || (c == b && p < i)) ==>
      AnchorRule(sc, all[c].members, all[c].members[p], cs)
  }

  /** An anchor visit only appends clusters. */
  lemma {:induction false} AnchorExtends(sc: Scoring, m: seq<nat>, i: nat, run: Run)
    requires StrictlyIncreasing(m) && i < |m|
    ensures run.clusters <= VisitAnchor(sc, m, i, run).clusters
  {
    if m[i] !in run.processed {
      AnchorEffect(sc, m, i, run);
    }
  }

  /** The anchor rule survives appending clusters. */
  lemma {:induction false} AnchorRuleGrows(sc: Scoring, all: seq<Block>, b: nat, i: nat, cs: seq<Cluster>,
                                          cs': seq<Cluster>)
    requires AnchorRuleSoFar(sc, all, b, i, cs) && cs <= cs' && Flagged(cs) <= Flagged(cs')
    ensures AnchorRuleSoFar(sc, all, b, i, cs')
  {
    forall c, p | 0 <= c < |all| && 0 <= p < |all[c].members| && (c < b || (c == b && p < i))
      ensures AnchorRule(sc, all[c].members, all[c].members[p], cs')
    {
      var m := all[c].members;
      var a := m[p];
      assert AnchorRule(sc, m, a, cs);
      if a !in Flagged(cs) {
        forall y | y in m && a < y && Similar(sc, a, y)
          ensures exists k :: 0 <= k < |cs'| && cs'[k].anchor < a && y in cs'[k].members
        {
          var k :| 0 <= k < |cs| && cs[k].anchor < a && y in cs[k].members;
          assert cs'[k] == cs[k];
        }
      }
    }
  }

  /** An anchor visit appends at most a cluster anchored at the current position. */
  lemma {:induction false} AnchorsBeforeStep(sc: Scoring, m: seq<nat>, i: nat, run: Run)
    requires StrictlyIncreasing(m) && i < |m|
    requires AnchorsBefore(m, i, run.clusters)
    ensures AnchorsBefore(m, i + 1, VisitAnchor(sc, m, i, run).clusters)
  {
    var cs := run.clusters;
    var next := VisitAnchor(sc, m, i, run).clusters;
    AnchorExtends(sc, m, i, run);
    forall k, x | 0 <= k < |next| && x in next[k].members && x in m
      ensures next[k].anchor in m[..i + 1]
    {
      assert m[..i + 1] == m[..i] + [m[i]];
      if k < |cs| {
        assert next[k] == cs[k];
      } else {
        AnchorEffect(sc, m, i, run);
      }
    }
  }

  /**
   After the visit of the anchor at position `i`, the anchor rule holds for
   it: an unprocessed later row similar to it would have been taken, so
   each such row was processed earlier, hence grouped by a cluster anchored
   at an earlier position of the block.
   */
  lemma {:induction false} AnchorRuleAt(sc: Scoring, m: seq<nat>, i: nat, run: Run)
    requires StrictlyIncreasing(m) && i < |m|
    requires PendingFlagged(m, i, run) && AnchorsBefore(m, i, run.clusters)
    ensures AnchorRule(sc, m, m[i], VisitAnchor(sc, m, i, run).clusters)
  {
    var a := m[i];
    var cs := run.clusters;
    var next := VisitAnchor(sc, m, i, run);
    AnchorFlaggedGrows(sc, m, i, run);
    if a in run.processed {
      assert a in Flagged(cs);
    } else {
      var J := Joined(sc, a, m[i + 1..], run.processed);
      AnchorEffect(sc, m, i, run);
      if J != {} {
        FlaggedAppend(cs, Cluster(a, J + {a}));
        assert a in Flagged(next.clusters);
      } else {
        forall y | y in m && a < y && Similar(sc, a, y)
          ensures exists k :: 0 <= k < |cs| && cs[k].anchor < a && y in cs[k].members
        {
          LaterPosition(m, i, y);
          var j :| 0 <= j < |m| && m[j] == y;
          assert i < j;
          assert y !in J;
          assert y in Flagged(cs);
          FlaggedMember(cs, y);
          var k :| 0 <= k < |cs| && y in cs[k].members;
          var p :| 0 <= p < i && m[..i][p] == cs[k].anchor;
          assert m[p] < m[i];
        }
      }
    }
  }

  /** Walking the rest of block `b` keeps the anchor rule for every anchor in it. */
  lemma {:induction false} BlockAnchorRule(sc: Scoring, all: seq<Block>, b: nat, i: nat, run: Run)
    requires Layout(all) && b < |all| && i <= |all[b].members|
    requires RunInv(sc, all, run) && PendingFlagged(all[b].members, i, run)
    requires AnchorsBefore(all[b].members, i, run.clusters)
    requires AnchorRuleSoFar(sc, all, b, i, run.clusters)
    ensures AnchorRuleSoFar(sc, all, b + 1, 0, VisitBlock(sc, all[b].members, i, run).clusters)
    decreases |all[b].members| - i
  {
    var m := all[b].members;
    if i < |m| {
      var next := VisitAnchor(sc, m, i, run);
      AnchorKeeps(sc, all, b, i, run);
      AnchorExtends(sc, m, i, run);
      AnchorFlaggedGrows(sc, m, i, run);
      AnchorsBeforeStep(sc, m, i, run);
      AnchorRuleAt(sc, m, i, run);
      AnchorRuleGrows(sc, all, b, i, run.clusters, next.clusters);
      BlockAnchorRule(sc, all, b, i + 1, next);
    }
  }

  /** A block no row of which is processed holds no row of any claimed cluster. */
  lemma {:induction false} FreshBlockAnchors(all: seq<Block>, b: nat, cs: seq<Cluster>, processed: set<nat>)
    requires b < |all| && Untouched(all, b, processed) && ClustersClaimed(cs, processed)
    ensures AnchorsBefore(all[b].members, 0, cs)
  {
    var m := all[b].members;
    forall k, x | 0 <= k < |cs| && x in cs[k].members
      ensures x !in m
    {
      assert x in processed;
    }
  }

  /** Walking the blocks from `b` on keeps the anchor rule for every anchor. */
  lemma {:induction false} BlocksAnchorRule(sc: Scoring, all: seq<Block>, b: nat, run: Run)
    requires Layout(all) && b <= |all|
    requires RunInv(sc, all, run) && Untouched(all, b, run.processed)
    requires AnchorRuleSoFar(sc, all, b, 0, run.clusters)
    ensures AnchorRuleSoFar(sc, all, |all|, 0, VisitBlocks(sc, all[b..], run).clusters)
    decreases |all| - b
  {
    if b < |all| {
      var m := all[b].members;
      var next := VisitBlock(sc, m, 0, run);
      assert all[b..][0] == all[b] && all[b..][1..] == all[b + 1..];
      assert VisitBlocks(sc, all[b..], run) == VisitBlocks(sc, all[b + 1..], next);
      assert RunInv(sc, all, next) && Untouched(all, b + 1, next.processed)
          && AnchorRuleSoFar(sc, all, b + 1, 0, next.clusters) by {
        assert PendingFlagged(m, 0, run) by {
          forall j | 0 <= j < |m|
            ensures m[j] !in run.processed
          {
            assert m[j] in all[b].members;
          }
        }
        FreshBlockAnchors(all, b, run.clusters, run.processed);
        BlockKeeps(sc, all, b, 0, run);
        BlockAnchorRule(sc, all, b, 0, run);
        forall c, x | b + 1 <= c < |all| && x in all[c].members
          ensures x !in next.processed
        {
          assert x !in m;
        }
      }
      BlocksAnchorRule(sc, all, b + 1, next);
    } else {
      assert VisitBlocks(sc, all[b..], run) == run;
    }
  }

  /** Once every block is walked, an ungrouped row lost its similar later rows to earlier anchors. */
  lemma {:induction false} UngroupedLost(rows: seq<Row>, leadingChars: nat, sc: Scoring, cs: seq<Cluster>,
                                        a: nat, y: nat)
    requires sc.rows == rows
    requires AnchorRuleSoFar(sc, ComparisonGroups(rows, leadingChars), |ComparisonGroups(rows, leadingChars)|, 0, cs)
    requires a < y && SameKey(rows, leadingChars, a, y) && Similar(sc, a, y) && a !in Flagged(cs)
    ensures exists k :: 0 <= k < |cs| && cs[k].anchor < a && y in cs[k].members
  {
    var all := ComparisonGroups(rows, leadingChars);
    SameKeyCohabit(rows, leadingChars, a, y);
    var c :| 0 <= c < |all| && a in all[c].members && y in all[c].members;
    var p :| 0 <= p < |all[c].members| && all[c].members[p] == a;
    assert AnchorRule(sc, all[c].members, a, cs);
  }

  /**
   Which rows become anchors: a row left out of every group lost each later
   row of its block that scores at least the threshold against it to a group
   whose anchor comes before it. DetectGreedy says what a group holds given
   its anchor; this lemma says why a row anchors no group.
   */
  lemma {:induction false} DetectAnchorRule(rows: seq<Row>, threshold: int, leadingChars: nat,
                                           score: (Row, Row) -> int)
    ensures var cs := Detect(rows, threshold, leadingChars, score).clusters;
      forall a: nat, y: nat ::
        a < y && SameKey(rows, leadingChars, a, y) && score(rows[a], rows[y]) >= threshold && a !in Flagged(cs) ==>
          exists k :: 0 <= k < |cs| && cs[k].anchor < a && y in cs[k].members
  {
    var sc := Scoring(rows, score, threshold);
    var all := ComparisonGroups(rows, leadingChars);
    var cs := Detect(rows, threshold, leadingChars, score).clusters;
    ComparisonGroupsSound(rows, leadingChars);
    assert all[0..] == all;
    BlocksAnchorRule(sc, all, 0, Run({}, [], 0));
    forall a: nat, y: nat |
      a < y && SameKey(rows, leadingChars, a, y) && score(rows[a], rows[y]) >= threshold && a !in Flagged(cs)
      ensures exists k :: 0 <= k < |cs| && cs[k].anchor < a && y in cs[k].members
    {
      UngroupedLost(rows, leadingChars, sc, cs, a, y);
    }
  }

  // ---------------------------------------------------------------------
  // When nothing is similar, every pair of every block is compared
  // ---------------------------------------------------------------------

  /** No two distinct rows are similar; a row is never compared with itself. */
  ghost predicate NoneSimilar(sc: Scoring)
  {
    forall i, j :: i != j ==> !Similar(sc, i, j)
  }

  lemma {:induction false} SweepNoMatch(sc: Scoring, anchor: nat, later: seq<nat>, s: Sweep)
    requires NoneSimilar(sc) && anchor !in later
    requires forall j :: 0 <= j < |later| ==> later[j] !in s.processed
    ensures SweepLater(sc, anchor, later, s) == s.(comparisons := s.comparisons + |later|)
    decreases |later|
  {
    if later != [] {
      assert anchor != later[0];
      assert !Similar(sc, anchor, later[0]);
      var t := later[1..];
      assert forall j :: 0 <= j < |t| ==> t[j] == later[j + 1];
      assert anchor !in t;
      SweepNoMatch(sc, anchor, t, Compare(sc, anchor, s, later[0]));
    }
  }

  lemma {:induction false} BlockNoMatch(sc: Scoring, m: seq<nat>, i: nat, run: Run)
    requires NoneSimilar(sc) && StrictlyIncreasing(m) && i <= |m|
    requires forall j :: i <= j < |m| ==> m[j] !in run.processed
    ensures VisitBlock(sc, m, i, run).comparisons == run.comparisons + Pairs(|m| - i)
    ensures VisitBlock(sc, m, i, run).clusters == run.clusters
    ensures VisitBlock(sc, m, i, run).processed <= run.processed + Elements(m)
    decreases |m| - i
  {
    if i < |m| {
      var later := m[i + 1..];
      assert forall j :: 0 <= j < |later| ==> later[j] == m[i + 1 + j];
      assert m[i] !in later by {
        forall j | 0 <= j < |later|
          ensures later[j] != m[i]
        {
          assert m[i] < m[i + 1 + j];
        }
      }
      SweepNoMatch(sc, m[i], later, Sweep({m[i]}, run.processed, run.comparisons));
      var next := VisitAnchor(sc, m, i, run);
      assert next == Run(run.processed + {m[i]}, run.clusters, run.comparisons + |m| - i - 1) by {
        assert |{m[i]}| == 1;
      }
      forall j | i + 1 <= j < |m|
        ensures m[j] !in next.processed
      {
        assert m[i] < m[j];
      }
      BlockNoMatch(sc, m, i + 1, next);
      PairsStep(|m| - i - 1);
    }
  }

  lemma {:induction false} BlocksNoMatch(sc: Scoring, all: seq<Block>, b: nat, run: Run)
    requires NoneSimilar(sc) && Layout(all) && b <= |all|
    requires Untouched(all, b, run.processed)
    ensures VisitBlocks(sc, all[b..], run).comparisons == run.comparisons + TotalComparisons(all[b..])
    ensures VisitBlocks(sc, all[b..], run).clusters == run.clusters
    decreases |all| - b
  {
    if b < |all| {
      var m := all[b].members;
      assert all[b..][0] == all[b] && all[b..][1..] == all[b + 1..];
      forall j | 0 <= j < |m|
        ensures m[j] !in run.processed
      {
        assert m[j] in all[b].members;
      }
      BlockNoMatch(sc, m, 0, run);
      var next := VisitBlock(sc, m, 0, run);
      forall c, x | b + 1 <= c < |all| && x in all[c].members
        ensures x !in next.processed
      {
        assert x !in m;
      }
      BlocksNoMatch(sc, all, b + 1, next);
    }
  }

  /**
   When no pair reaches the threshold, no group is reported and the
   comparison counter ends exactly at the total computed beforehand, so the
   progress fraction reaches 1.
   */
  lemma {:induction false} NothingSimilarComparesAll(rows: seq<Row>, threshold: int, leadingChars: nat,
                                                    score: (Row, Row) -> int)
    requires forall i, j :: 0 <= i < |rows| && 0 <= j < |rows| && i != j ==> score(rows[i], rows[j]) < threshold
    ensures Detect(rows, threshold, leadingChars, score).clusters == []
    ensures Detect(rows, threshold, leadingChars, score).comparisons
            == TotalComparisons(ComparisonGroups(rows, leadingChars))
  {
    var all := ComparisonGroups(rows, leadingChars);
    ComparisonGroupsSound(rows, leadingChars);
    assert all[0..] == all;
    BlocksNoMatch(Scoring(rows, score, threshold), all, 0, Run({}, [], 0));
  }

  // ---------------------------------------------------------------------
  // find_duplicates as loops
  // ---------------------------------------------------------------------

  /** The row sets of some clusters, dropping the anchors. */
  function Groups(cs: seq<Cluster>): seq<set<nat>>
  {
    seq(|cs|, k requires 0 <= k < |cs| => cs[k].members)
  }

  /**
   The inner loop (app.py lines 65-80): compares the anchor at position `i`
   of the block with every later unprocessed row of the block.
   */
  method SweepAnchor(sc: Scoring, m: seq<nat>, i: nat, processed0: set<nat>, comparisons0: nat)
    returns (group: set<nat>, processed: set<nat>, comparisons: nat)
    requires i < |m|
    requires forall x :: x in m ==> x < |sc.rows|
    ensures Sweep(group, processed, comparisons) == SweepLater(sc, m[i], m[i + 1..], Sweep({m[i]}, processed0, comparisons0))
    ensures group == {m[i]} + Joined(sc, m[i], m[i + 1..], processed0)
    ensures comparisons0 <= comparisons <= comparisons0 + (|m| - i - 1)
  {
    var idx1 := m[i];
    group, processed, comparisons := {idx1}, processed0, comparisons0;
    var j := i + 1;
    while j < |m|
      invariant i + 1 <= j <= |m|
      invariant SweepLater(sc, idx1, m[j..], Sweep(group, processed, comparisons))
             == SweepLater(sc, idx1, m[i + 1..], Sweep({idx1}, processed0, comparisons0))
    {
      var idx2 := m[j];
      assert idx1 in m && idx2 in m;
      assert m[j..][1..] == m[j + 1..];
      if idx2 !in processed {
        var similarity := sc.score(sc.rows[idx1], sc.rows[idx2]);
        comparisons := comparisons + 1;
        if similarity >= sc.threshold {
          group := group + {idx2};
          processed := processed + {idx2};
        }
      }
      j := j + 1;
    }
    assert m[j..] == [];
    SweepLaterJoins(sc, idx1, m[i + 1..], Sweep({idx1}, processed0, comparisons0));
  }

  /** The loop at app.py line 58 over the positions of one block. */
  method SweepBlock(sc: Scoring, m: seq<nat>, run0: Run) returns (run: Run)
    requires forall x :: x in m ==> x < |sc.rows|
    ensures run == VisitBlock(sc, m, 0, run0)
    ensures run0.comparisons <= run.comparisons <= run0.comparisons + Pairs(|m|)
  {
    var processed, clusters, comparisons := run0.processed, run0.clusters, run0.comparisons;
    var i := 0;
    while i < |m|
      invariant 0 <= i <= |m|
      invariant VisitBlock(sc, m, i, Run(processed, clusters, comparisons)) == VisitBlock(sc, m, 0, run0)
    {
      var idx1 := m[i];
      if idx1 !in processed {
        var group;
        group, processed, comparisons := SweepAnchor(sc, m, i, processed, comparisons);
        if |group| > 1 {
          clusters := clusters + [Cluster(idx1, group)];
        }
        processed := processed + {idx1};
      }
      i := i + 1;
    }
    run := Run(processed, clusters, comparisons);
    VisitBlockCount(sc, m, 0, run0);
  }

  /**
   find_duplicates (app.py lines 39-88) with its three nested loops. It
   returns the same groups, in the same order, as `Detect`, and its
   comparison counter ends at most at the total the progress display
   divides by.
   */
  method FindDuplicates(rows: seq<Row>, threshold: int, leadingChars: nat, score: (Row, Row) -> int)
    returns (groups: seq<set<nat>>, comparisons: nat)
    ensures groups == Groups(Detect(rows, threshold, leadingChars, score).clusters)
    ensures comparisons == Detect(rows, threshold, leadingChars, score).comparisons
    ensures comparisons <= TotalComparisons(ComparisonGroups(rows, leadingChars))
    ensures forall k :: 0 <= k < |groups| ==> |groups[k]| >= 2
  {
    var sc := Scoring(rows, score, threshold);
    var blocks := ComparisonGroups(rows, leadingChars);
    ComparisonGroupsSound(rows, leadingChars);
    var run := Run({}, [], 0);
    var b := 0;
    assert blocks[0..] == blocks;
    while b < |blocks|
      invariant 0 <= b <= |blocks|
      invariant VisitBlocks(sc, blocks[b..], run) == Detect(rows, threshold, leadingChars, score)
    {
      assert blocks[b..][1..] == blocks[b + 1..];
      run := SweepBlock(sc, blocks[b].members, run);
      b := b + 1;
    }
    assert blocks[b..] == [];
    groups := Groups(run.clusters);
    comparisons := run.comparisons;
    DetectClusters(rows, threshold, leadingChars, score);
    ComparisonsWithinTotal(rows, threshold, leadingChars, score);
  }
}

=== FILE: pipeline.dfy ===
/**
 The whole pipeline: blocking, greedy grouping and annotation, in the
 order main applies them once the user asks for duplicates (app.py lines
 163-178). `Deduplicate` is defined for every table, including those of
 fewer than two rows, on which main stops earlier at the summary line
 (line 161, see the Summary module) and never reaches the search.
 */
module Pipeline {
  import opened Records
  import opened Blocking
  import opened Grouping
  import opened Annotation

  /** The labels added to every row of the table. */
  function Deduplicate(rows: seq<Row>, threshold: int, leadingChars: nat, score: (Row, Row) -> int): seq<Label>
  {
    Annotate(|rows|, Groups(Detect(rows, threshold, leadingChars, score).clusters))
  }

  lemma {:induction false} GroupsDisjoint(cs: seq<Cluster>)
    requires ClustersDisjoint(cs)
    ensures PairwiseDisjoint(Groups(cs))
  {
    var gs := Groups(cs);
    forall k, l | 0 <= k < l < |gs|
      ensures gs[k] !! gs[l]
    {
      assert cs[k].members !! cs[l].members;
    }
  }

  /** Annotating disjoint in-range clusters, in terms of the clusters. */
  lemma {:induction false} ClusterLabels(n: nat, cs: seq<Cluster>, labels: seq<Label>)
    requires ClustersDisjoint(cs)
    requires forall k, i :: 0 <= k < |cs| && i in cs[k].members ==> i < n
    requires labels == Annotate(n, Groups(cs))
    ensures |labels| == n
    ensures
      && (forall k, i :: 0 <= k < |cs| && i in cs[k].members ==>
            labels[i] == Label(k + 1, RowNumbers(SortedBelow(cs[k].members, n))))
      && (forall i :: 0 <= i < n ==> (labels[i].duplicateGroup == -1 <==> i !in Flagged(cs)))
  {
    var gs := Groups(cs);
    GroupsDisjoint(cs);
    AnnotateLabels(n, gs);
    forall i | 0 <= i < n
      ensures InAnyGroup(gs, i) <==> i in Flagged(cs)
    {
      FlaggedMember(cs, i);
      if i in Flagged(cs) {
        var k :| 0 <= k < |cs| && i in cs[k].members;
        assert i in gs[k];
      }
    }
    forall k, i | 0 <= k < |cs| && i in cs[k].members
      ensures labels[i] == Label(k + 1, RowNumbers(SortedBelow(cs[k].members, n)))
    {
      assert gs[k] == cs[k].members;
      assert labels[i] == GroupLabel(gs, k, n);
    }
  }

  /** The clusters found are disjoint and hold only rows of the table. */
  lemma {:induction false} DetectInRange(rows: seq<Row>, threshold: int, leadingChars: nat,
                                        score: (Row, Row) -> int)
    ensures var cs := Detect(rows, threshold, leadingChars, score).clusters;
      && ClustersDisjoint(cs)
      && (forall k, i :: 0 <= k < |cs| && i in cs[k].members ==> i < |rows|)
  {
    DetectClusters(rows, threshold, leadingChars, score);
  }

  /**
   Each row of the `k`-th group found gets group number `k + 1` and the
   group's sorted 1-based row numbers; a row's group number is -1 exactly
   when no group holds it.
   */
  lemma {:induction false} DeduplicateLabels(rows: seq<Row>, threshold: int, leadingChars: nat,
                                            score: (Row, Row) -> int)
    ensures var labels := Deduplicate(rows, threshold, leadingChars, score);
      var cs := Detect(rows, threshold, leadingChars, score).clusters;
      && |labels| == |rows|
      && (forall k, i :: 0 <= k < |cs| && i in cs[k].members ==>
            && i < |rows|
            && labels[i] == Label(k + 1, RowNumbers(SortedBelow(cs[k].members, |rows|))))
      && (forall i :: 0 <= i < |rows| ==> (labels[i].duplicateGroup == -1 <==> i !in Flagged(cs)))
  {
    var cs := Detect(rows, threshold, leadingChars, score).clusters;
    var labels := Deduplicate(rows, threshold, leadingChars, score);
    DetectInRange(rows, threshold, leadingChars, score);
    ClusterLabels(|rows|, cs, labels);
  }

  /** A row of a cluster whose rows all carry the anchor's key shares that key with another row. */
  lemma {:induction false} ClusterRowShares(rows: seq<Row>, leadingChars: nat, c: Cluster, i: nat)
    requires |c.members| >= 2 && c.anchor in c.members && i in c.members
    requires forall x :: x in c.members ==> SameKey(rows, leadingChars, c.anchor, x)
    ensures i < |rows| && SharesKey(rows, leadingChars, i)
  {
    var j: nat;
    if i == c.anchor {
      assert c.members != {i} by {
        assert |{i}| == 1;
      }
      var y :| y in c.members && y != i;
      j := y;
    } else {
      j := c.anchor;
    }
    assert SameKey(rows, leadingChars, c.anchor, i) && SameKey(rows, leadingChars, c.anchor, j);
    assert j < |rows| && j != i && BlockKey(rows[j], leadingChars) == BlockKey(rows[i], leadingChars);
  }

  /** Every row in a group found shares its bucket key with another row. */
  lemma {:induction false} FlaggedRowsShare(rows: seq<Row>, threshold: int, leadingChars: nat,
                                           score: (Row, Row) -> int)
    ensures var cs := Detect(rows, threshold, leadingChars, score).clusters;
      forall i :: i in Flagged(cs) ==> i < |rows| && SharesKey(rows, leadingChars, i)
  {
    var cs := Detect(rows, threshold, leadingChars, score).clusters;
    DetectClusters(rows, threshold, leadingChars, score);
    forall i | i in Flagged(cs)
      ensures i < |rows| && SharesKey(rows, leadingChars, i)
    {
      FlaggedMember(cs, i);
      var k :| 0 <= k < |cs| && i in cs[k].members;
      ClusterRowShares(rows, leadingChars, cs[k], i);
    }
  }

  /**
   A row that ends up in a duplicate group has a comparison text at least
   `leadingChars` long whose key another row shares: rows too short to be
   keyed, and rows whose key no other row has, always stay unique.
   */
  lemma {:induction false} LabelledRowsShareKey(rows: seq<Row>, threshold: int, leadingChars: nat,
                                               score: (Row, Row) -> int)
    ensures var labels := Deduplicate(rows, threshold, leadingChars, score);
      forall i :: 0 <= i < |rows| && labels[i].duplicateGroup != -1 ==>
        |ComparisonText(rows[i])| >= leadingChars && SharesKey(rows, leadingChars, i)
  {
    DeduplicateLabels(rows, threshold, leadingChars, score);
    FlaggedRowsShare(rows, threshold, leadingChars, score);
  }

  /** Every row of a group found has the bucket key of the group's anchor. */
  lemma {:induction false} DetectSameKey(rows: seq<Row>, threshold: int, leadingChars: nat,
                                        score: (Row, Row) -> int)
    ensures var cs := Detect(rows, threshold, leadingChars, score).clusters;
      forall k, x :: 0 <= k < |cs| && x in cs[k].members ==> SameKey(rows, leadingChars, cs[k].anchor, x)
  {
    DetectClusters(rows, threshold, leadingChars, score);
  }

  /** Rows labelled with the same group lie in one cluster, so they share its anchor's key. */
  lemma {:induction false} SameLabelSameKey(rows: seq<Row>, leadingChars: nat, cs: seq<Cluster>, labels: seq<Label>)
    requires |labels| == |rows|
    requires forall k, i :: 0 <= k < |cs| && i in cs[k].members ==> i < |rows| && labels[i].duplicateGroup == k + 1
    requires forall i :: 0 <= i < |rows| ==> (labels[i].duplicateGroup == -1 <==> i !in Flagged(cs))
    requires forall k, x :: 0 <= k < |cs| && x in cs[k].members ==> SameKey(rows, leadingChars, cs[k].anchor, x)
    ensures forall i, j ::
      0 <= i < |rows| && 0 <= j < |rows| && labels[i].duplicateGroup != -1
      && labels[i].duplicateGroup == labels[j].duplicateGroup
      ==> SameKey(rows, leadingChars, i, j)
  {
    forall i, j | 0 <= i < |rows| && 0 <= j < |rows| && labels[i].duplicateGroup != -1
      && labels[i].duplicateGroup == labels[j].duplicateGroup
      ensures SameKey(rows, leadingChars, i, j)
    {
      FlaggedMember(cs, i);
      FlaggedMember(cs, j);
      var k :| 0 <= k < |cs| && i in cs[k].members;
      var l :| 0 <= l < |cs| && j in cs[l].members;
      assert labels[i].duplicateGroup == k + 1 && labels[j].duplicateGroup == l + 1;
      assert SameKey(rows, leadingChars, cs[k].anchor, i) && SameKey(rows, leadingChars, cs[k].anchor, j);
    }
  }

  /** Two rows with the same group number have the same bucket key. */
  lemma {:induction false} SameGroupSameKey(rows: seq<Row>, threshold: int, leadingChars: nat,
                                           score: (Row, Row) -> int)
    ensures var labels := Deduplicate(rows, threshold, leadingChars, score);
      forall i, j ::
        0 <= i < |rows| && 0 <= j < |rows| && labels[i].duplicateGroup != -1
        && labels[i].duplicateGroup == labels[j].duplicateGroup
        ==> SameKey(rows, leadingChars, i, j)
  {
    var labels := Deduplicate(rows, threshold, leadingChars, score);
    var cs := Detect(rows, threshold, leadingChars, score).clusters;
    DeduplicateLabels(rows, threshold, leadingChars, score);
    DetectSameKey(rows, threshold, leadingChars, score);
    SameLabelSameKey(rows, leadingChars, cs, labels);
  }

  /** If every similar same-key pair has a grouped row, it has a labelled row. */
  lemma {:induction false} CoveredPairsLabelled(rows: seq<Row>, threshold: int, leadingChars: nat,
                                               score: (Row, Row) -> int, cs: seq<Cluster>, labels: seq<Label>)
    requires |labels| == |rows|
    requires forall i :: 0 <= i < |rows| ==> (labels[i].duplicateGroup == -1 <==> i !in Flagged(cs))
    requires forall i: nat, j: nat :: i < j && SameKey(rows, leadingChars, i, j) && score(rows[i], rows[j]) >= threshold ==>
      i in Flagged(cs) || j in Flagged(cs)
    ensures forall i, j :: 0 <= i < j < |rows| && SameKey(rows, leadingChars, i, j) && score(rows[i], rows[j]) >= threshold ==>
      labels[i].duplicateGroup != -1 || labels[j].duplicateGroup != -1
  {
    forall i, j | 0 <= i < j < |rows| && SameKey(rows, leadingChars, i, j) && score(rows[i], rows[j]) >= threshold
      ensures labels[i].duplicateGroup != -1 || labels[j].duplicateGroup != -1
    {
      assert i in Flagged(cs) || j in Flagged(cs);
    }
  }

  /**
   Of two rows with the same bucket key whose score reaches the threshold,
   at least one ends up labelled with a duplicate group.
   */
  lemma {:induction false} SimilarPairLabelled(rows: seq<Row>, threshold: int, leadingChars: nat,
                                              score: (Row, Row) -> int)
    ensures var labels := Deduplicate(rows, threshold, leadingChars, score);
      forall i, j :: 0 <= i < j < |rows| && SameKey(rows, leadingChars, i, j) && score(rows[i], rows[j]) >= threshold ==>
        labels[i].duplicateGroup != -1 || labels[j].duplicateGroup != -1
  {
    var labels := Deduplicate(rows, threshold, leadingChars, score);
    var cs := Detect(rows, threshold, leadingChars, score).clusters;
    DeduplicateLabels(rows, threshold, leadingChars, score);
    DetectMaximal(rows, threshold, leadingChars, score);
    CoveredPairsLabelled(rows, threshold, leadingChars, score, cs, labels);
  }
}

=== FILE: records.dfy ===
/**
 Rows of the loaded table and the comparison text derived from them.

 A row is the sequence of its cells in column order; a missing cell (what
 pandas reports as NaN) is `None`. Every present cell is already its string
 form: the formatting of numbers and dates is not part of this model.
 */
module Records {

  datatype Option<+T> = None | Some(value: T)

  /** One data row of the table, cells in column order. */
  type Row = seq<Option<string>>

  /** Sum of the lengths of some strings. */
  function TotalLength(parts: seq<string>): nat
  {
    if parts == [] then 0 else |parts[0]| + TotalLength(parts[1..])
  }

  /** The present cells of a row, in column order. */
  function Present(row: Row): (vs: seq<string>)
    ensures |vs| <= |row|
    ensures forall v :: v in vs <==> Some(v) in row
    ensures (forall k :: 0 <= k < |row| ==> row[k].None?) <==> vs == []
  {
    if row == [] then []
    else
      var rest := Present(row[1..]);
      assert forall v :: Some(v) in row <==> row[0] == Some(v) || Some(v) in row[1..];
      match row[0]
      case None => rest
      case Some(v) => [v] + rest
  }

  /** The parts separated by single spaces, as Python's string join with a space does. */
  function Join(parts: seq<string>): (s: string)
    ensures parts == [] ==> s == ""
    ensures parts != [] ==> |s| == TotalLength(parts) + |parts| - 1
    ensures parts != [] ==> parts[0] <= s
    ensures |parts| > 1 ==> s[|parts[0]|] == ' '
  {
    if parts == [] then ""
    else if |parts| == 1 then parts[0]
    else parts[0] + " " + Join(parts[1..])
  }

  /**
   The comparison text of a row (app.py lines 12-13 and 19): its present
   cells joined by single spaces, missing cells skipped.
   */
  function ComparisonText(row: Row): (t: string)
    ensures (forall k :: 0 <= k < |row| ==> row[k].None?) ==> t == ""
    ensures Present(row) != [] ==> Present(row)[0] <= t
  {
    Join(Present(row))
  }

  /**
   The present cells keep column order: the present cells of two runs of
   cells side by side are those of the first run followed by those of the
   second, a missing cell contributes nothing and a present one itself.
   */
  lemma {:induction false} PresentAppend(a: Row, b: Row)
    ensures Present(a + b) == Present(a) + Present(b)
    ensures Present([None]) == []
    ensures forall v :: Present([Some(v)]) == [v]
    decreases |a|
  {
    if a == [] {
      assert a + b == b;
    } else {
      assert (a + b)[0] == a[0];
      assert (a + b)[1..] == a[1..] + b;
      PresentAppend(a[1..], b);
    }
  }

  /**
   Each further part is appended after one space: joining `parts` and then
   `p` is the join of `parts` followed by a space and `p`.
   */
  lemma {:induction false} JoinAppend(parts: seq<string>, p: string)
    ensures Join([p]) == p
    ensures parts != [] ==> Join(parts + [p]) == Join(parts) + " " + p
    decreases |parts|
  {
    if |parts| > 1 {
      assert (parts + [p])[1..] == parts[1..] + [p];
      JoinAppend(parts[1..], p);
    } else if |parts| == 1 {
      assert (parts + [p])[1..] == [p];
    }
  }

  /**
   How the comparison text grows cell by cell: an empty row has the empty
   text, a missing cell leaves the text as it is, and a present cell is
   appended after a space, or alone when no earlier cell was present.
   Together these fix the text of every row.
   */
  lemma {:induction false} ComparisonTextAppend(row: Row, v: string)
    ensures ComparisonText([]) == ""
    ensures ComparisonText(row + [None]) == ComparisonText(row)
    ensures Present(row) == [] ==> ComparisonText(row + [Some(v)]) == v
    ensures Present(row) != [] ==> ComparisonText(row + [Some(v)]) == ComparisonText(row) + " " + v
  {
    PresentAppend(row, [None]);
    PresentAppend(row, [Some(v)]);
    JoinAppend(Present(row), v);
    assert Present(row) + [] == Present(row);
    if Present(row) == [] {
      assert Present(row) + [v] == [v];
    }
  }

  predicate IsUpper(c: char)
  {
    'A' <= c <= 'Z'
  }

  /** ASCII lower-casing of one character. */
  function LowerChar(c: char): char
  {
    if IsUpper(c) then (c as int + 32) as char else c
  }

  /** Lower-casing of a string, character by character, ASCII letters only. */
  function Lower(s: string): (r: string)
    ensures |r| == |s|
    ensures forall k :: 0 <= k < |r| ==> !IsUpper(r[k])
    ensures forall k :: 0 <= k < |r| ==> r[k] == s[k] || (IsUpper(s[k]) && r[k] as int == s[k] as int + 32)
  {
    seq(|s|, k requires 0 <= k < |s| => LowerChar(s[k]))
  }
}

=== FILE: summary.dfy ===
/**
 The summary main shows before the search (app.py lines 157-161): the
 number of comparisons the blocks will cost, and that number as a share of
 all pairs of rows.

 The share is modelled in whole tenths of a percent, rounded down; the
 source computes it in floating point and prints it with one decimal.
 */
module Summary {
  import opened Records
  import opened Blocking

  /** The share as displayed, or the ZeroDivisionError Python raises instead. */
  datatype Shown = Share(permille: nat) | ZeroDivision

  /** Line 161 as written: divides by the number of all pairs, whatever it is. */
  function ReductionAsWritten(total: nat, possible: nat): (r: Shown)
    ensures r.ZeroDivision? <==> possible == 0
    ensures r.Share? ==> r.permille * possible <= total * 1000 < (r.permille + 1) * possible
  {
    if possible == 0 then ZeroDivision else Share(total * 1000 / possible)
  }

  /** Line 161 with the empty case handled: no pairs at all shows a share of zero. */
  function Reduction(total: nat, possible: nat): (permille: nat)
    ensures possible == 0 ==> permille == 0
    ensures possible > 0 ==> permille * possible <= total * 1000 < (permille + 1) * possible
  {
    if possible == 0 then 0 else total * 1000 / possible
  }

  /** A table has a pair of rows exactly when it has two rows. */
  lemma {:induction false} PairsPositive(n: nat)
    ensures Pairs(n) > 0 <==> n >= 2
  {
    if n >= 2 {
      assert n * (n - 1) >= 2 * 1 by {
        assert n - 1 >= 1;
      }
    } else {
      assert n * (n - 1) == 0;
    }
  }

  /** The summary as written fails exactly on tables of fewer than two rows. */
  lemma {:induction false} SummaryFailsOnTinyTables(rows: seq<Row>, leadingChars: nat)
    ensures ReductionAsWritten(TotalComparisons(ComparisonGroups(rows, leadingChars)), Pairs(|rows|)).ZeroDivision?
            <==> |rows| < 2
  {
    PairsPositive(|rows|);
  }

  /** A one-row table, the smallest input that makes the summary as written fail. */
  lemma {:induction false} OneRowFails()
    ensures var rows: seq<Row> := [[Some("x")]];
      ReductionAsWritten(TotalComparisons(ComparisonGroups(rows, 3)), Pairs(|rows|)) == ZeroDivision
  {
    SummaryFailsOnTinyTables([[Some("x")]], 3);
  }

  lemma {:induction false} ShareAtMostWhole(total: nat, possible: nat, permille: nat)
    requires total <= possible && possible > 0
    requires permille * possible <= total * 1000
    ensures permille <= 1000
  {
    assert total * 1000 <= possible * 1000;
    assert (permille - 1000) * possible <= 0;
  }

  /**
   The corrected summary is defined for every table, and since the blocks
   never cost more comparisons than all pairs, the share is at most 100 %.
   */
  lemma {:induction false} SummaryWithinWhole(rows: seq<Row>, leadingChars: nat)
    ensures Reduction(TotalComparisons(ComparisonGroups(rows, leadingChars)), Pairs(|rows|)) <= 1000
  {
    var total := TotalComparisons(ComparisonGroups(rows, leadingChars));
    ComparisonsWithinAllPairs(rows, leadingChars);
    if Pairs(|rows|) > 0 {
      ShareAtMostWhole(total, Pairs(|rows|), Reduction(total, Pairs(|rows|)));
    }
  }
}
